=== FILE: README.md ===
# GearGuard maintenance core in Dafny

GearGuard is a Django application for equipment maintenance. Users report
breakdowns. Managers schedule preventive work and assign technicians.
Technicians start and finish the work. Administrators approve the accounts
people ask for. This project models the rules at the centre of it and proves
properties of the model:

- **Request lifecycle.** `MaintenanceRequest.save` recomputes the overdue
  flag and scraps the equipment once. The handlers `start_task`, `end_task`
  and `update_request_stage`, the manager's update view and the technician's
  detail view each move a request between the stages New, In Progress,
  Repaired and Scrap. Each fills the start time, end time, duration and
  completion date under its own rules. The technician's form limits which
  stage may follow the current one.
- **Preventive scheduling.** `Equipment.get_next_maintenance_date` and the
  preventive-maintenance calendar: scheduled requests, projected due dates
  stepped by the equipment's interval, the month grid, and the links to the
  previous and next month.
- **Registration approval.** The sign-up form, the single approve and reject
  views, and the two bulk admin actions that take a registration from
  Pending to Approved or Rejected.
- **Role gates.** The five `*RequiredMixin` guards, `role_required` and its
  five specialisations, and the role helpers in `utils.py`.

Dates are day numbers counted as Python's `date.toordinal` counts them
(1 January of year 1 is day 1). The weekday of day `d` is `(d + 6) % 7`,
with Monday as 0. Times are whole seconds. A duration is kept in hundredths
of an hour, which is the two-decimal `duration_hours` field as an integer.
Text fields are cleaned as Django's forms clean them: surrounding whitespace (Python's `str.isspace`) is stripped. An optional text field left empty, or not sent at all, is stored as "", never as unset.
The database is modelled as values. Requests and equipment are classes whose
fields the handlers change in place. Accounts and registrations are maps held
by a `Registry` object. The present time ("now" and "today") is always a
parameter.

Modules, one file each:

- `wrappers.dfy`: Option and Result.
- `dates.dfy`: the proleptic Gregorian calendar.
- `identity.dfy`: users, profiles and replies.
- `utils.dfy`: `RoleUtils`.
- `decorators.dfy` and `mixins.dfy`: the role gates.
- `models.dfy`: the records and `save`.
- `forms.dfy`: the forms.
- `handlers.dfy`: the request views.
- `calendar.dfy`: `Scheduler`.
- `registrations.dfy`: approval and rejection.

## Model

| member | source | states |
|---|---|---|
| Identity.RoleOf | maintenance/models.py:8-13 | A user's role is their profile's role. There is none exactly when the visitor is anonymous or has no profile. |
| Identity.TeamsOf | maintenance/views.py:209-210 | A team is among the user's teams exactly when the user is a member of it. |
| RoleUtils.RedirectUrl | maintenance/utils.py:8-25 | Admin, Manager, Technician and User each go to their own dashboard. Every other role, and no role, goes to the manager dashboard. |
| RoleUtils.RedirectLandsOnOwnDashboard | maintenance/utils.py:18-25 | Every redirect lands on a known dashboard. For the four roles it is that role's own dashboard; for anything else it is the manager's. |
| RoleUtils.HasRole | maintenance/utils.py:44-56 | True exactly when the user has a role and it is one of the roles listed. So it is false for an empty list, for an anonymous visitor and for a user without a profile. |
| Decorators.RoleRequired | maintenance/decorators.py:10-38 | An anonymous visitor is sent to login. A user without a profile is refused before any role comparison. The view is called, with the request unchanged, exactly when the role is among the allowed ones. Otherwise the refusal names the required roles joined by ", ". |
| Decorators.DecoratorsAdmitExactly | maintenance/decorators.py:41-63 | Each of the five specialisations admits exactly its fixed role set: {Admin}, {Manager}, {Technician}, {User}, {Admin, Manager}. |
| Decorators.RoleRequiredIsHasRole | maintenance/decorators.py:32-36 | `role_required` admits a user exactly when `has_role` holds for the same roles. |
| Mixins.Dispatch | maintenance/mixins.py:5-92 | An anonymous visitor goes to login before any role check. A user without a profile gets "User profile not found…". The view runs exactly when the role is admitted by the mixin. A refused role gets the mixin's message. |
| Mixins.MixinsAgreeWithDecorators | maintenance/mixins.py:77-92 | Each mixin and its decorator counterpart send the same visitors to login, refuse the same users, and admit the same users with the same response. |
| Mixins.ManagerMixinRefusesAdmin | maintenance/mixins.py:15-16 | `ManagerRequiredMixin` refuses an administrator, although its message says admins may enter. |
| Dates.DaysInMonth | maintenance/views.py:526 | A month has 28 to 31 days. February has 29 exactly in a leap year. April, June, September and November have 30. |
| Dates.FebruaryLengths | maintenance/views.py:526 | The century rule for February: 2024 and 2000 give 29 days; 2023 and 1900 give 28. |
| Dates.Weekday | maintenance/views.py:598-599 | The weekday lies in 0..6, counted from Monday as 0; `Dates.WeekdayNext` and `Dates.FirstDayIsMonday` pin it down as the weekday that advances by one each day from Monday on 1 January of year 1. |
| Dates.FirstDayIsMonday | maintenance/views.py:598-599 | 1 January of year 1 is day 1 and a Monday. |
| Dates.WeekdayNext | maintenance/views.py:598-599 | Each next day's weekday is one more, modulo 7, so Sunday (6) is followed by Monday (0). |
| Dates.NewYear2024IsMonday | maintenance/views.py:599 | 1 January 2024 has weekday 0 (Monday). |
| Dates.HundredthsOfHour | maintenance/views.py:247-249 | The duration in hundredths of an hour is the elapsed seconds / 36 rounded to the nearest integer, i.e. within half a hundredth of the exact value. |
| Dates.OneHourIsOneHundredHundredths | maintenance/views.py:248-249 | 3600 seconds give 1.00 hour, and 0 seconds give 0. |
| Dates.NinetyDaysAfterJanuary15 | maintenance/models.py:146-147 | 2023-01-15 plus 90 days is 2023-04-15. |
| Models.ParseStage | maintenance/views.py:1152 | A stage text is accepted only when it is the display name of a stage. |
| Models.ParseStageName | maintenance/views.py:1152 | Each stage's own name parses back to that stage. |
| Models.ParsePriority | maintenance/models.py:213-218 | A priority text is accepted only when it is the name of one of the four priorities. |
| Models.ParsePriorityName | maintenance/models.py:213-218 | Each priority's own name parses back to that priority. |
| Models.Saved | maintenance/models.py:292-296 | After a save, `is_overdue` holds exactly when a scheduled date is set, the stage is neither Repaired nor Scrap, and the date is before today. No other field changes. |
| Models.ScrapCascade | maintenance/models.py:298-305 | The equipment changes only when the request is in Scrap and the equipment is not yet scrapped. Then it is scrapped today, and its scrap reason becomes the resolution summary only if that summary is non-empty. Otherwise nothing changes. |
| Models.SaveIdempotent | maintenance/models.py:292-296 | Saving twice is the same as saving once, and the stored overdue flag has no influence on the result. |
| Models.ClosedRequestsAreNotOverdue | maintenance/models.py:293-296 | A Repaired or Scrap request is never overdue after a save. |
| Models.CascadeFiresOnce | maintenance/models.py:299-305 | Over any series of saves against one piece of equipment: already-scrapped equipment never changes, and otherwise only the first Scrap save changes it. |
| Models.LastService | maintenance/models.py:133-137 | Finds the first Repaired preventive request of the equipment, ordered by completion date newest first with unset dates first. None means there is no such request. |
| Models.NextMaintenanceDate | maintenance/models.py:127-147 | None exactly when the interval is unset or 0. Otherwise the result is the last service's completion date plus the interval when that date is set, else the purchase date (or today) plus the interval. |
| Models.NextMaintenanceFromPurchase | maintenance/models.py:146-147 | Purchase on 2023-01-15 with a 90-day interval and no service gives 2023-04-15. |
| Models.NextMaintenanceFromLastService | maintenance/models.py:139-141 | When every completed service has a completion date and service k has the latest one, the next date is service k's date plus the interval. |
| Models.MaintenanceRequest.Save | maintenance/models.py:291-307 | The request's new state is its old state with the overdue flag recomputed. The linked equipment's new state is the scrap cascade of its old state. |
| Forms.TechnicianStageChoices | maintenance/forms.py:262-283 | The stages the technician may choose: New gives New and In Progress; In Progress gives In Progress, Repaired and Scrap; Repaired and Scrap give only themselves. The current stage (New for an unsaved request) is always among them. |
| Forms.Strip | maintenance/forms.py:336-388 | Stripping never lengthens a text. |
| Forms.StripShape | maintenance/forms.py:336-388 | The stripped text is the slice of the input between a whitespace-only head and a whitespace-only tail. It starts and ends with a non-space character, and it is empty exactly when the input is blank. |
| Forms.StripLeftShape | maintenance/forms.py:336-388 | Leading stripping removes exactly a whitespace-only prefix, and what is left is empty or starts with a non-space character. |
| Forms.StripRightShape | maintenance/forms.py:336-388 | Trailing stripping removes exactly a whitespace-only suffix, and what is left is empty or ends with a non-space character. |
| Forms.StripIdempotent | maintenance/forms.py:336-388 | Stripping twice is stripping once. |
| Forms.CleanText | maintenance/models.py:277-278 | A cleaned optional text is always present, "" when nothing was sent, and never longer than what was typed. |
| Forms.CleanTextMeaning | maintenance/forms.py:298-301 | A cleaned text is filled exactly when the input is present and not blank. It is "" exactly when the input is absent or blank, and blank only when it is "". Cleaning twice is cleaning once. |
| Forms.CharFieldErrors | maintenance/models.py:171-174 | A text field has no error exactly when it is non-empty or optional, and within its maximum length. There is at most one error, on that field. |
| Forms.TechnicianChoicesMoveForward | maintenance/forms.py:265-283 | For a saved request: no offered stage lies behind the current one. A closed stage offers exactly itself. From New exactly the open stages are offered; from In Progress exactly every stage but New. |
| Forms.UnsavedFormCountsAsNew | maintenance/forms.py:265 | A request not yet saved is offered what a New request is offered, New and In Progress, whatever its stage field says. |
| Forms.TechnicianClean | maintenance/forms.py:295-306 | Given the cleaned summary, there is an error exactly when the stage is Repaired and the summary is empty, and the error is on `resolution_summary`. |
| Forms.TechnicianFormErrors | maintenance/forms.py:234-306 | A form passes exactly when its stage is known and offered for the current stage, its duration (if any) lies in 0 ≤ d < 10^10 hundredths, and a Repaired stage comes with a summary that is not blank. The errors come in the form's order: field checks, then `clean` (only on a valid stage), then the model's non-negative check. |
| Forms.RepairedNeedsSummaryScrapDoesNot | maintenance/forms.py:300-304 | From In Progress with no summary, or a whitespace-only one, Repaired is refused with exactly the `resolution_summary` error while Scrap is accepted. |
| Forms.NegativeDurationReportedAfterClean | maintenance/models.py:265-271 | A negative duration is refused by the model's validator, after `clean`: marking Repaired with no summary and a negative duration reports the summary first, then the duration. |
| Forms.ApplyTechnicianForm | maintenance/forms.py:234-239 | The form writes the stage, the duration and the cleaned notes and summary ("" when blank or not sent), and nothing else. |
| Forms.PriorityErrors | maintenance/models.py:225 | The priority is required and must be one of the four choices: no error exactly when it names a priority, and every error is on `priority`. |
| Forms.ManagerFormErrors | maintenance/forms.py:68-98 | Valid exactly when the stage is known, the technician is unset or is a user whose role is Technician, and the priority names one of the four priorities. |
| Forms.UnknownPriorityRefused | maintenance/forms.py:73 | A manager's form with stage New, no technician and priority "Urgent" is refused with exactly the invalid-choice error on `priority`. |
| Forms.BreakdownFormErrors | maintenance/forms.py:202-217 | Valid exactly when the stripped subject is non-empty and at most 255 characters long, the equipment exists and is not scrapped, and the priority names one of the four priorities. |
| Forms.BreakdownRequest | maintenance/forms.py:219-231 | The new request is Corrective and New, created by the reporter, with the equipment's team, the stripped subject and the priority the form names. It has no technician, schedule or times, and it is not overdue. |
| Forms.PreventiveFormErrors | maintenance/forms.py:42-65 | Valid exactly when the stripped subject is non-empty and at most 255 characters long, the equipment exists and is not scrapped, the team is active, the technician is unset or has the Technician role, and the priority names one of the four priorities. |
| Forms.PreventiveRequest | maintenance/views.py:506-510 | The new request is Preventive and New, created by the manager, with the form's equipment, team, technician, date and priority and the stripped subject. It is overdue exactly when the date is before today. |
| Forms.SignupErrors | maintenance/forms.py:336-421 | After stripping, a sign-up passes exactly when the username (≤ 150) and the email (≤ 254) are non-empty and used by no account and no registration, the names have at most 150 characters, the password has 8 to 128 characters and the confirmation equals it, and the role is User, Technician or Manager. The errors come field by field in the form's order, then `clean`, then the model's checks. |
| Forms.UsernameFieldErrors | maintenance/forms.py:390-396 | No error exactly when the stripped username is non-empty, at most 150 characters, no account has it and no Pending registration has it. Every error is on `username`. |
| Forms.EmailFieldErrors | maintenance/forms.py:398-404 | No error exactly when the stripped email is non-empty, at most 254 characters, no account has it and no Pending registration has it. Every error is on `email`. |
| Forms.PasswordErrors | maintenance/forms.py:338-345 | No error exactly when the password has at least 8 characters. |
| Forms.RoleErrors | maintenance/forms.py:353-364 | No error exactly when the role is User, Technician or Manager. Every error is on `requested_role`. |
| Forms.ConfirmErrors | maintenance/forms.py:346-352 | No error exactly when the confirmation is non-empty and either the password already failed its own check or the two are equal. |
| Forms.ModelErrors | maintenance/models.py:171-175 | No error exactly when a password that passed the form is at most 128 characters, and a username and an email that passed the form are on no registration of any status. Errors are on `username`, `email`, or `password` when it is too long. |
| Forms.PaddedPasswordIsShort | maintenance/forms.py:338-345 | " abcdefg " is stripped to 7 characters and refused with the minimum-length message for 8 and 7. |
| Forms.UniquenessReportedAfterClean | maintenance/models.py:171 | A username held only by a Rejected registration passes `clean_username` but is refused by the model's uniqueness check, which reports after `clean`'s password mismatch. |
| Forms.SignupNeverRequestsAdmin | maintenance/forms.py:353-364 | A valid sign-up never asks for the Admin role. |
| Forms.MismatchGoesToConfirm | maintenance/forms.py:411-421 | With a password of 8 to 128 characters and a different, non-empty confirmation, the mismatch error is on `password_confirm`, and it is the only error on either password field. |
| Forms.SignupRegistration | maintenance/forms.py:423-430 | The stored registration is Pending and carries the form's stripped username, email and password and its role. It has no approver yet. |
| Handlers.StartTaskRestartsClock | maintenance/views.py:215-220 | Starting puts the request In Progress and overwrites the start time with now. It assigns the user only when no technician is set, and leaves the end time and duration alone. |
| Handlers.BoardClosingRecordsWork | maintenance/views.py:1160-1173 | A drop onto Repaired or Scrap sets an end time, a completion date and (when started and unset) a duration. Each is filled only when it was unset. |
| Handlers.StageUpdateIdempotent | maintenance/views.py:1155-1173 | Dropping a request twice onto the same stage, at any two times, is the same as dropping it once. |
| Handlers.ManagerFormIsBoardDrop | maintenance/views.py:473-496 | The manager's update view fills the times exactly as a drop onto the chosen stage does, after taking the technician and priority. |
| Handlers.FinishingStartedWorkAgrees | maintenance/views.py:245-251 | For started work with nothing filled in yet, and notes and summary already set and stripped as a form stores them, `end_task`, a drop onto Repaired, the manager form and the technician form all leave the same record. |
| Handlers.FormStoresEmptyNotes | maintenance/views.py:245-251 | Where the notes were never set, the four do not agree: `end_task` keeps them unset while the technician form stores "". |
| Handlers.TechnicianFormDiffersFromBoard | maintenance/views.py:1010-1035 | The technician form gives no completion date on Scrap, where the board does. On Repaired it overwrites a typed duration, where the board keeps it. |
| Handlers.ClosedByAnyHandlerIsNotOverdue | maintenance/views.py:246-252 | A request closed by `end_task` or by a drop onto Repaired or Scrap is never overdue once saved. |
| Handlers.StartTask | maintenance/views.py:200-226 | Anonymous gives 401, a missing request gives 404, and a user who is neither assigned nor in the team gets 403. On success the request is started and saved. On any refusal nothing changes. |
| Handlers.EndTask | maintenance/views.py:229-259 | 401, then 404, then 403 unless the user is the assigned technician, then 400 unless the work was started. On success: end time now, duration recomputed, Repaired, completed today, saved. On any refusal nothing changes. |
| Handlers.UpdateRequestStage | maintenance/views.py:1143-1182 | 401, then 404, then 400 for a missing or unknown stage, with no change. Otherwise the stage and its fill-ins are applied and the request is saved. No role is checked. |
| Handlers.FillStageTimes | maintenance/views.py:1155-1173 | The request's new state is the board drop's fill-ins applied to its old state. |
| Handlers.FillManagerForm | maintenance/views.py:473-496 | The request's new state is the manager form's values and fill-ins applied to its old state. |
| Handlers.ManagerUpdate | maintenance/views.py:466-496 | Only Admin and Manager get through. An invalid form changes nothing. A valid one saves the manager-form update and redirects. |
| Handlers.DetailAccess | maintenance/views.py:973-1008 | Corrected access to the technician's detail view. Anonymous visitors go to login. Non-technicians are refused with the mixin's message. A technician gets in exactly for a request they are assigned to or whose team they belong to, and otherwise gets 404. |
| Handlers.AnonymousDetailVisitFails | maintenance/views.py:993-1008 | As written, an anonymous visit ends in a server error. The corrected version sends it to login. |
| Handlers.DetailRefusalUnreachable | maintenance/views.py:1004-1006 | As written, the view's own "You don't have access" refusal can never be produced. A signed-in user outside the request gets 404 whatever their role. |
| Handlers.DetailAccessFixKeepsTechnicians | maintenance/views.py:980-1008 | The correction changes nothing for technicians, and it grants access to exactly the same visitors. |
| Handlers.FillTechnicianForm | maintenance/views.py:1010-1035 | The request's new state is the technician form's cleaned values ("" for a blank text) and fill-ins applied to its old state. |
| Handlers.CopyTechnicianForm | maintenance/views.py:1010-1011 | The request's new state is the old one with the form's stage, duration and cleaned texts ("" for a blank text), and the equipment is untouched. |
| Handlers.TechnicianFormUpdateKeeps | maintenance/views.py:1010-1035 | The technician update keeps the chosen stage and the cleaned summary. |
| Handlers.TechnicianFormUpdateKeepsNotes | maintenance/views.py:1010-1035 | The technician update keeps the cleaned notes. |
| Handlers.TechnicianUpdate | maintenance/views.py:973-1035 | Access is decided by the corrected order of `Handlers.DetailAccess` (login, then role, then 404), not the order as written (`Handlers.DetailAccessAsWritten`). Only a technician who may work on the request gets through. An invalid form changes nothing. A valid one saves the technician-form update, with blank texts stored as "", and redirects. |
| Handlers.TechnicianViewMovesForward | maintenance/views.py:1010-1035 | After a valid technician update the stage has not moved backwards, a closed request keeps its stage, and a request left Repaired has a resolution summary that is not blank. |
| Handlers.CreateBreakdownRequest | maintenance/views.py:1074-1095 | Only role User gets through. A valid form creates a fresh Corrective, New request with the equipment's team. The equipment is unchanged. |
| Handlers.CreatePreventiveRequest | maintenance/views.py:499-510 | Only Admin and Manager get through. A valid form creates a fresh Preventive request as the form describes. The equipment is unchanged. |
| Scheduler.GroupLookup | maintenance/views.py:545-559 | The list kept for a date is exactly the entries with that date, in the order they were added. |
| Scheduler.OnDateMembers | maintenance/views.py:613 | An entry is listed on a date exactly when it is one of the entries and carries that date. |
| Scheduler.ExplicitEntriesExactly | maintenance/views.py:530-559 | The scheduled entries are exactly those of preventive requests scheduled within the month that are not Repaired or Scrap. |
| Scheduler.ProjectionsExactly | maintenance/views.py:566-595 | The projected entries are exactly the dates next, next + interval, … up to the month's end on which the equipment has no non-Scrap preventive request. |
| Scheduler.AllProjectedExactly | maintenance/views.py:566-595 | A projection is listed for the month exactly when it is a projection of one piece of equipment of the query. |
| Scheduler.ProjectedForIsListed | maintenance/views.py:566-595 | Every projection of a piece of equipment of the query is listed. |
| Scheduler.ListedIsProjectedFor | maintenance/views.py:566-595 | Every listed projection comes from some piece of equipment of the query. |
| Scheduler.NoProjectionOnScheduledDate | maintenance/views.py:574-581 | No projection falls on a date where the same equipment already has a scheduled entry. |
| Scheduler.Blanks | maintenance/views.py:603-604 | n blank cells. |
| Scheduler.DayCellsAt | maintenance/views.py:607-614 | Day cell k is day k of the month, on its date, listing that date's entries. |
| Scheduler.GridCells | maintenance/views.py:598-614 | The grid is fewer than 7 blanks (the weekday of the 1st) followed by one cell per day 1..last day, in order. |
| Scheduler.CalendarGrid | maintenance/views.py:598-614 | On the page, the cell of day k lists exactly the month's entries dated that day. |
| Scheduler.February2024Grid | maintenance/views.py:598-614 | February 2024 begins on a Thursday and its grid has 32 cells. |
| Scheduler.MonthLinks | maintenance/views.py:617-629 | The previous-month and next-month links wrap 1↔12 with the year moving by one, and each undoes the other. |
| Scheduler.CollectScheduled | maintenance/views.py:548-559 | The first loop builds the by-date lists of the scheduled entries. |
| Scheduler.CollectProjections | maintenance/views.py:568-595 | The `while` loop adds one piece of equipment's projections to the by-date lists. |
| Scheduler.BuildGrid | maintenance/views.py:598-614 | The grid loops build the blanks and then the day cells. |
| Scheduler.BuildCalendar | maintenance/views.py:517-643 | Fails exactly for an impossible year or month. Otherwise the page built with the view's loops is the calendar page defined above. |
| Registrations.ApproveOne | maintenance/admin.py:62-114 | An existing username gets the requested role and the registration is approved with approver and time. Otherwise a taken email changes nothing. Otherwise a new account is created with the requested role. An exception changes nothing. |
| Registrations.ApproveOneKeepsValid | maintenance/admin.py:84-112 | One approval keeps emails unique and account keys distinct. |
| Registrations.PendingOf | maintenance/admin.py:61 | Only the selected registrations that are Pending are processed. |
| Registrations.ApproveFrom | maintenance/admin.py:59-114 | The batch loop leaves the set of registrations the same. |
| Registrations.EveryQueuedRegistrationAccounted | maintenance/admin.py:59-114 | In total, count + error lines = processed registrations, and an error does not stop the rest. |
| Registrations.ApprovedExactlyCounted | maintenance/admin.py:59-119 | On a queue of distinct Pending registrations, each one ends either approved by the approver at that time or unchanged and still Pending. The count is the number that end Approved and the error lines are as many as those left Pending. |
| Registrations.PendingOfDistinct | maintenance/admin.py:61 | A selection without repeats gives a queue without repeats. |
| Registrations.ActionCountsApproved | maintenance/admin.py:54-119 | The count the bulk action reports is the number of selected Pending registrations that end Approved, and its error lines are as many as those still Pending. |
| Registrations.OnlyQueuedRegistrationsChange | maintenance/admin.py:61 | Registrations outside the processed ones are left as they were. |
| Registrations.ApproveFromKeepsValid | maintenance/admin.py:84-112 | The whole batch keeps emails unique and account keys distinct. |
| Registrations.ApprovalMessagesAsWritten | maintenance/admin.py:116-121 | As written, the action always sends two messages, and the second always says every user was created. |
| Registrations.ApprovalMessages | maintenance/admin.py:116-119 | Corrected: one message, a warning exactly when there were errors. |
| Registrations.ApprovalMessageRepeated | maintenance/admin.py:116-121 | A clean run announces the same success twice, and a run with errors follows its warning with a success message. The corrected version sends one message each time. |
| Registrations.RejectSelected | maintenance/admin.py:123-126 | No row appears or disappears and no field but the status changes. A row changes exactly when it was selected and Pending, and every row that changes ends Rejected. |
| Registrations.RejectionSettlesSelection | maintenance/admin.py:124-126 | No selected registration is left Pending. Non-Pending registrations are untouched. The rows counted are exactly those that changed. |
| Registrations.Registry.ApproveStep | maintenance/admin.py:62-114 | The registry's new state and outcome are those of one approval of its old state. |
| Registrations.Registry.ApproveRegistrations | maintenance/admin.py:54-121 | For a selection without repeats, the new state, count and errors are those of the batch loop over the Pending selection. One corrected message reports them (see Findings). |
| Registrations.Registry.RejectRegistrations | maintenance/admin.py:124-126 | The registrations become the bulk rejection of the old ones, and the accounts are unchanged. The count is the number of selected Pending rows and is reported. |
| Registrations.Registry.ApproveRegistration | maintenance/views.py:100-163 | 403 unless the caller is an administrator. 404 unless the registration exists and is Pending. Otherwise one approval: success, or 400 naming the taken email or the exception. A refusal changes nothing. |
| Registrations.Registry.RejectRegistration | maintenance/views.py:166-182 | 403 unless administrator, 404 unless Pending. Otherwise Rejected with the given reason (empty when none), the administrator and the time. No account changes. |
| Registrations.ViewAndActionAgree | maintenance/views.py:108-163 | Approving one registration from the list view does the same as the bulk action on it alone. It is counted exactly when the view answers success. |
| Registrations.SignupThenApproval | maintenance/admin.py:89-112 | A valid sign-up, once approved, creates an account with its username, email and requested role, never Admin, and records the approver. |

## Left out

- HTTP, templates and the ORM. The texts modelled are the admin actions' messages, the guards' refusal texts, the form errors and the error answers of the views; the `messages.success` texts of the views (maintenance/views.py:128, 160, 181, 495, 509, 1034, 1090) and the payloads of their JSON success answers are not: the `message` strings of maintenance/views.py:129, 161, 182; `message` and `start_time` of `start_task` (maintenance/views.py:222-226); `message`, `duration_hours` and `end_time` of `end_task` (maintenance/views.py:254-259); and `message`, `stage` and `duration_hours` (None for a zero duration) of `update_request_stage` (maintenance/views.py:1177-1182). Each is the bare success answer. Requests, equipment, accounts and registrations are in-memory values; a database query is a sequence in the query's own order (equipment by `equipment_name`, maintenance/models.py:151; scheduled requests by `scheduled_date`, maintenance/views.py:536), which the caller supplies already sorted.
- Models.Account: holds the id, the email and the role only; the password and the first and last names that `create_user` stores (maintenance/admin.py:89-95, maintenance/views.py:136-142) are not modelled, since no modelled rule reads them.
- The order of query results that tie on their ordering key is taken as the order of the input sequence.
- `timezone.now()`: the present time and date are parameters. They are independent of each other.
- Floating point: durations are integer hundredths rounded half up. Python's `round` on a float tie may differ.
- Forms.PreventiveFormErrors: the scheduled date arrives as a day number or none; the error Django gives for a posted text that is not a date is not modelled.
- Date arithmetic is not bounded at year 9999: a projected date past it would raise in Python.
- The GET parsing of `year` and `month` in the calendar view, and `month_name`.
- Handlers.StartTask, Handlers.EndTask, Handlers.UpdateRequestStage: the 405 answer to methods other than POST is not modelled.
- Scheduler.BuildCalendar: the Admin-or-Manager guard of the view is `Mixins.Dispatch`; it is not composed into the method.
- `clean_password`'s call to Django's `validate_password` (its similarity, common-password and numeric checks) is not modelled; only the field's minimum and maximum length are.
- The email field's address-format validation is not modelled: any non-empty text within 254 characters counts as an address.
- Django's rejection of the null character in text fields is not modelled.
- Forms.TechnicianFormErrors: the wording of Django's decimal-digit messages is one message; the separate whole-digit and decimal-place messages are not distinguished, and the inputs that are not numbers are not modelled (the duration arrives as hundredths).
- Registrations.Registry.ApproveRegistrations: sends the corrected single message (`Registrations.ApprovalMessages`), not the two that maintenance/admin.py:116-121 sends as written; the as-written pair is `Registrations.ApprovalMessagesAsWritten` (see Findings). The selection is a list of distinct ids, as a queryset's primary keys are.
- The request fields `description`, `due_date` and `estimated_duration`, which no modelled rule reads.
- The profile-creating signal: a created account carries its role directly.
- Registrations.ApproveOne: an exception is modelled as raised before anything is written. A failure part-way through a branch is not modelled.
- Forms.TechnicianStageChoices: the final `else` branch (every stage) cannot be reached with the four stages as a datatype.
- Forms.TechnicianFormErrors: the digit limits of `duration_hours` (10 digits, 2 after the point) are checked as one bound on the integer number of hundredths.
- The login view, dashboards, reports, lists and the equipment and team views.

## Findings

| source | as written | input that shows it | evidently intended | confidence | as-written member | corrected member |
|---|---|---|---|---|---|---|
| maintenance/admin.py:116-121 | After the warning-or-success message, the success message is sent again unconditionally | Any approval run: with no errors "1 registration(s) approved and users created." appears twice; with an error the warning is followed by a claim that users were created | One message: the warning when there were errors, the success message otherwise | high, not executed | Registrations.ApprovalMessagesAsWritten | Registrations.ApprovalMessages |
| maintenance/views.py:993-1008 | `dispatch` looks the request up among the user's own before the role mixin runs | An anonymous visitor opening the detail page: the lookup filters on the anonymous user and fails with a server error instead of the login page | The mixin's check first, as for the other technician views | medium, not executed | Handlers.DetailAccessAsWritten | Handlers.DetailAccess |

=== FILE: calendar.dfy ===
/** The preventive-maintenance calendar: for one month, the preventive
    requests scheduled in it and the dates on which equipment with a
    maintenance interval falls due, arranged in a Monday-first grid, with
    links to the previous and the next month. The requests and the equipment
    are given in the order the database returns them. */
module Scheduler {
  import opened Wrappers
  import opened Dates
  import opened Identity
  import opened Models

  datatype EntryKind = Scheduled | Interval

  /** One item shown on a day of the calendar: an existing request
      (`Scheduled`, with its key) or a projected due date (`Interval`, with
      no key). */
  datatype Entry = Entry(
    kind: EntryKind,
    subject: string,
    equipmentName: string,
    technician: Option<UserId>,
    pk: Option<nat>,
    date: Day)

  /** A day of the month in the grid. */
  datatype Cell = Cell(date: Day, day: int, entries: seq<Entry>)

  /** What the calendar page shows. `cells` holds None for the blank cells
      before the first day of the month. */
  datatype CalendarPage = CalendarPage(
    year: int,
    month: int,
    cells: seq<Option<Cell>>,
    prevYear: int,
    prevMonth: int,
    nextYear: int,
    nextMonth: int,
    today: Day)

  // ---------------------------------------------------------------------
  // Grouping entries by date

  /** The entries of `s` dated `d`, in order. */
  function OnDate(s: seq<Entry>, d: Day): seq<Entry> {
    if s == [] then []
    else OnDate(s[..|s| - 1], d) + (if s[|s| - 1].date == d then [s[|s| - 1]] else [])
  }

  /** `requests_by_date.get(d, [])`. */
  function Lookup(m: map<Day, seq<Entry>>, d: Day): seq<Entry> {
    if d in m then m[d] else []
  }

  /** `requests_by_date` after appending the entries of `s` in order: each
      entry goes at the end of its date's list, which is created when
      missing. */
  function Group(s: seq<Entry>): map<Day, seq<Entry>> {
    if s == [] then map[]
    else
      var m := Group(s[..|s| - 1]);
      var e := s[|s| - 1];
      m[e.date := Lookup(m, e.date) + [e]]
  }

  /** The list kept for a date holds exactly the entries with that date, in
      the order they were added. */
  lemma {:induction false} GroupLookup(s: seq<Entry>, d: Day)
    ensures Lookup(Group(s), d) == OnDate(s, d)
  {
    if s != [] {
      GroupLookup(s[..|s| - 1], d);
    }
  }

  lemma {:induction false} OnDateAppend(s: seq<Entry>, t: seq<Entry>, d: Day)
    ensures OnDate(s + t, d) == OnDate(s, d) + OnDate(t, d)
  {
    if t != [] {
      assert (s + t)[..|s + t| - 1] == s + t[..|t| - 1];
      OnDateAppend(s, t[..|t| - 1], d);
    } else {
      assert s + t == s;
    }
  }

  /** An entry is listed on a date exactly when it is one of the entries and
      carries that date. */
  lemma {:induction false} OnDateMembers(s: seq<Entry>, d: Day, x: Entry)
    ensures x in OnDate(s, d) <==> x in s && x.date == d
  {
    if s != [] {
      OnDateMembers(s[..|s| - 1], d, x);
      assert s == s[..|s| - 1] + [s[|s| - 1]];
    }
  }

  // ---------------------------------------------------------------------
  // Scheduled requests

  /** The requests the calendar lists: Preventive, scheduled within the
      month, and neither Repaired nor Scrap. */
  predicate ShownAsScheduled(r: RequestRecord, start: Day, end: Day) {
    && r.requestType == Preventive
    && r.scheduledDate.Some? && start <= r.scheduledDate.value <= end
    && !IsClosed(r.stage)
  }

  /** The name of the equipment with the given key. */
  function NameOf(table: seq<EquipmentRecord>, id: nat): string {
    if table == [] then ""
    else if table[0].id == id then table[0].name
    else NameOf(table[1..], id)
  }

  function ScheduledEntry(r: RequestRecord, table: seq<EquipmentRecord>): Entry
    requires r.scheduledDate.Some?
  {
    Entry(Scheduled, r.subject, NameOf(table, r.equipmentId), r.technician, Some(r.id), r.scheduledDate.value)
  }

  /** The entries of the scheduled requests, in the order of `requests`. */
  function ExplicitEntries(requests: seq<RequestRecord>, table: seq<EquipmentRecord>, start: Day, end: Day): seq<Entry> {
    if requests == [] then []
    else
      var r := requests[|requests| - 1];
      ExplicitEntries(requests[..|requests| - 1], table, start, end)
        + (if ShownAsScheduled(r, start, end) then [ScheduledEntry(r, table)] else [])
  }

  /** The scheduled entries are the shown requests, one each. */
  lemma {:induction false} ExplicitEntriesExactly(requests: seq<RequestRecord>, table: seq<EquipmentRecord>, start: Day, end: Day, x: Entry)
    ensures x in ExplicitEntries(requests, table, start, end) <==>
      exists i :: 0 <= i < |requests| && ShownAsScheduled(requests[i], start, end) && x == ScheduledEntry(requests[i], table)
  {
    if requests != [] {
      var front := requests[..|requests| - 1];
      ExplicitEntriesExactly(front, table, start, end, x);
      assert forall i :: 0 <= i < |front| ==> front[i] == requests[i];
    }
  }

  // ---------------------------------------------------------------------
  // Projected due dates

  /** Equipment whose due dates are projected: an interval above zero and
      not scrapped. */
  predicate Eligible(e: EquipmentRecord) {
    e.intervalDays.Some? && e.intervalDays.value > 0 && !e.isScrapped
  }

  /** A non-Scrap preventive request for the equipment already exists on
      the date (whatever its scheduled date's month and whether or not it
      is completed), so no due date is projected there. */
  predicate Suppressed(requests: seq<RequestRecord>, equipmentId: nat, d: Day) {
    exists i :: 0 <= i < |requests| && requests[i].equipmentId == equipmentId
      && requests[i].requestType == Preventive && requests[i].scheduledDate == Some(d)
      && requests[i].stage != Scrap
  }

  function IntervalEntry(e: EquipmentRecord, d: Day): Entry {
    Entry(Interval, "Preventive Maintenance - " + e.name, e.name, e.defaultTechnician, None, d)
  }

  /** The due dates from `from` onwards, one interval apart, up to `end`,
      except those already taken by a request. */
  function Projections(e: EquipmentRecord, requests: seq<RequestRecord>, from: Day, end: Day): seq<Entry>
    requires e.intervalDays.Some? && e.intervalDays.value > 0
    decreases end - from
  {
    if from > end then []
    else
      (if Suppressed(requests, e.id, from) then [] else [IntervalEntry(e, from)])
        + Projections(e, requests, from + e.intervalDays.value, end)
  }

  lemma {:induction false} MulAtLeast(iv: int, k: int)
    requires iv > 0 && k >= 1
    ensures iv * k >= iv
    decreases k
  {
    if k > 1 {
      MulAtLeast(iv, k - 1);
      assert iv * k == iv * (k - 1) + iv;
    }
  }

  /** Division by a positive divisor has one quotient and one remainder. */
  lemma ModUnique(a: int, iv: int, q: int, r: int)
    requires iv > 0 && a == iv * q + r && 0 <= r < iv
    ensures a % iv == r
  {
    var q', r' := a / iv, a % iv;
    assert a == iv * q' + r' && 0 <= r' < iv;
    if q < q' {
      assert iv * (q' - q) == r - r';
      MulAtLeast(iv, q' - q);
    } else if q > q' {
      assert iv * (q - q') == r' - r;
      MulAtLeast(iv, q - q');
    }
  }

  /** A day at or after `from` is a whole number of intervals after it
      exactly when it is `from` itself or a whole number of intervals after
      the next step. */
  lemma StepsFrom(d: int, from: int, iv: int)
    requires iv > 0 && from <= d
    ensures (d - from) % iv == 0 <==> d == from || (from + iv <= d && (d - (from + iv)) % iv == 0)
  {
    var a := d - from;
    if a == 0 {
      ModUnique(a, iv, 0, 0);
    } else if a < iv {
      ModUnique(a, iv, 0, a);
    } else {
      var q, r := (a - iv) / iv, (a - iv) % iv;
      assert a - iv == iv * q + r;
      ModUnique(a, iv, q + 1, r);
    }
  }

  /** The projected entries are exactly the dates from `from` to `end` a
      whole number of intervals after `from` that are not taken. */
  lemma {:induction false} ProjectionsExactly(e: EquipmentRecord, requests: seq<RequestRecord>, from: Day, end: Day, x: Entry)
    requires e.intervalDays.Some? && e.intervalDays.value > 0
    ensures x in Projections(e, requests, from, end) <==>
      && x == IntervalEntry(e, x.date)
      && from <= x.date <= end
      && (x.date - from) % e.intervalDays.value == 0
      && !Suppressed(requests, e.id, x.date)
    decreases end - from
  {
    var iv := e.intervalDays.value;
    if from <= end {
      var head := if Suppressed(requests, e.id, from) then [] else [IntervalEntry(e, from)];
      var tail := Projections(e, requests, from + iv, end);
      assert Projections(e, requests, from, end) == head + tail;
      ProjectionsExactly(e, requests, from + iv, end, x);
      if from <= x.date {
        StepsFrom(x.date, from, iv);
      }
    }
  }

  /** The projections of a piece of equipment, as the calendar computes them:
      from its next maintenance date, when that is not after the month. */
  function ProjectedFor(e: EquipmentRecord, requests: seq<RequestRecord>, end: Day, today: Day): seq<Entry> {
    if Eligible(e) then
      var next := NextMaintenanceDate(e, requests, today);
      if next.Some? && next.value <= end then Projections(e, requests, next.value, end) else []
    else []
  }

  /** The projections of all equipment, in the order of `table`. */
  function AllProjected(table: seq<EquipmentRecord>, requests: seq<RequestRecord>, end: Day, today: Day): seq<Entry> {
    if table == [] then []
    else AllProjected(table[..|table| - 1], requests, end, today) + ProjectedFor(table[|table| - 1], requests, end, today)
  }

  /** The table's projections are those of all but its last piece of
      equipment, followed by the last one's. */
  lemma AllProjectedSplit(table: seq<EquipmentRecord>, requests: seq<RequestRecord>, end: Day, today: Day)
    requires table != []
    ensures AllProjected(table, requests, end, today)
         == AllProjected(table[..|table| - 1], requests, end, today) + ProjectedFor(table[|table| - 1], requests, end, today)
  {
  }

  /** An entry of the front's projections or of the last piece's is one of
      the table's. */
  lemma ListedFromParts(table: seq<EquipmentRecord>, requests: seq<RequestRecord>, end: Day, today: Day, x: Entry)
    requires table != []
    requires x in AllProjected(table[..|table| - 1], requests, end, today) || x in ProjectedFor(table[|table| - 1], requests, end, today)
    ensures x in AllProjected(table, requests, end, today)
  {
    AllProjectedSplit(table, requests, end, today);
  }

  /** Whatever is projected for a piece of equipment in the table is
      projected for the table. */
  lemma {:induction false} ProjectedForIsListed(table: seq<EquipmentRecord>, requests: seq<RequestRecord>, end: Day, today: Day, e: EquipmentRecord, x: Entry)
    requires e in table && x in ProjectedFor(e, requests, end, today)
    ensures x in AllProjected(table, requests, end, today)
    decreases |table|
  {
    var n := |table| - 1;
    if table[n] != e {
      var front := table[..n];
      assert table == front + [table[n]];
      ProjectedForIsListed(front, requests, end, today, e, x);
    }
    ListedFromParts(table, requests, end, today, x);
  }

  /** Whatever is projected for the table is projected for one of its pieces
      of equipment. */
  lemma {:induction false} ListedIsProjectedFor(table: seq<EquipmentRecord>, requests: seq<RequestRecord>, end: Day, today: Day, x: Entry)
    requires x in AllProjected(table, requests, end, today)
    ensures exists j :: 0 <= j < |table| && x in ProjectedFor(table[j], requests, end, today)
    decreases |table|
  {
    var n := |table| - 1;
    var front := table[..n];
    var last := ProjectedFor(table[n], requests, end, today);
    AllProjectedSplit(table, requests, end, today);
    if x !in last {
      ListedIsProjectedFor(front, requests, end, today, x);
      var j :| 0 <= j < n && x in ProjectedFor(front[j], requests, end, today);
      assert front[j] == table[j];
    }
  }

  /** An entry is projected for the table exactly when it is projected for
      one of its pieces of equipment. */
  lemma AllProjectedExactly(table: seq<EquipmentRecord>, requests: seq<RequestRecord>, end: Day, today: Day, x: Entry)
    ensures x in AllProjected(table, requests, end, today) <==>
      exists j :: 0 <= j < |table| && x in ProjectedFor(table[j], requests, end, today)
  {
    if x in AllProjected(table, requests, end, today) {
      ListedIsProjectedFor(table, requests, end, today, x);
    }
    if j :| 0 <= j < |table| && x in ProjectedFor(table[j], requests, end, today) {
      ProjectedForIsListed(table, requests, end, today, table[j], x);
    }
  }

  /** A request the calendar lists is never shown twice: its date is not
      also projected for the same equipment. */
  lemma NoProjectionOnScheduledDate(e: EquipmentRecord, requests: seq<RequestRecord>, from: Day, end: Day, start: Day, i: nat)
    requires e.intervalDays.Some? && e.intervalDays.value > 0
    requires i < |requests| && requests[i].equipmentId == e.id && ShownAsScheduled(requests[i], start, end)
    ensures forall x :: x in Projections(e, requests, from, end) ==> x.date != requests[i].scheduledDate.value
  {
    forall x | x in Projections(e, requests, from, end)
      ensures x.date != requests[i].scheduledDate.value
    {
      ProjectionsExactly(e, requests, from, end, x);
    }
  }

  // ---------------------------------------------------------------------
  // The grid and the month links

  function Blanks(n: nat): (cells: seq<Option<Cell>>)
    ensures |cells| == n && forall i :: 0 <= i < n ==> cells[i].None?
  {
    if n == 0 then [] else Blanks(n - 1) + [None]
  }

  /** The cells of days 1 to n of the month. */
  function DayCells(year: int, month: int, n: nat, byDate: map<Day, seq<Entry>>): seq<Option<Cell>>
    requires 1 <= month <= 12
  {
    if n == 0 then []
    else
      var date := Ordinal(year, month, n);
      DayCells(year, month, n - 1, byDate) + [Some(Cell(date, n, Lookup(byDate, date)))]
  }

  lemma {:induction false} DayCellsAt(year: int, month: int, n: nat, byDate: map<Day, seq<Entry>>, k: int)
    requires 1 <= month <= 12 && 1 <= k <= n
    ensures |DayCells(year, month, n, byDate)| == n
    ensures DayCells(year, month, n, byDate)[k - 1]
         == Some(Cell(Ordinal(year, month, 1) + k - 1, k, Lookup(byDate, Ordinal(year, month, 1) + k - 1)))
  {
    if k < n {
      DayCellsAt(year, month, n - 1, byDate, k);
    } else if n > 1 {
      DayCellsAt(year, month, n - 1, byDate, 1);
    }
  }

  function PrevMonth(year: int, month: int): (int, int) {
    if month == 1 then (year - 1, 12) else (year, month - 1)
  }

  function NextMonth(year: int, month: int): (int, int) {
    if month == 12 then (year + 1, 1) else (year, month + 1)
  }

  /** The month links wrap around the year, and going back then forward (or
      forward then back) returns to the same month. */
  lemma MonthLinks(year: int, month: int)
    requires 1 <= month <= 12
    ensures 1 <= PrevMonth(year, month).1 <= 12 && 1 <= NextMonth(year, month).1 <= 12
    ensures month == 1 <==> PrevMonth(year, month) == (year - 1, 12)
    ensures month == 12 <==> NextMonth(year, month) == (year + 1, 1)
    ensures var (py, pm) := PrevMonth(year, month); NextMonth(py, pm) == (year, month)
    ensures var (ny, nm) := NextMonth(year, month); PrevMonth(ny, nm) == (year, month)
  {
  }

  /** Every entry of the month, scheduled ones first. */
  function AllEntries(year: int, month: int, today: Day, requests: seq<RequestRecord>, table: seq<EquipmentRecord>): seq<Entry>
    requires 1 <= month <= 12
  {
    var start := Ordinal(year, month, 1);
    var end := Ordinal(year, month, DaysInMonth(year, month));
    ExplicitEntries(requests, table, start, end) + AllProjected(table, requests, end, today)
  }

  /** The cells of a month: as many blanks as the weekday of the 1st, then
      one cell per day. */
  function Grid(year: int, month: int, byDate: map<Day, seq<Entry>>): seq<Option<Cell>>
    requires 1 <= month <= 12
  {
    Blanks(Weekday(Ordinal(year, month, 1))) + DayCells(year, month, DaysInMonth(year, month), byDate)
  }

  lemma GridCells(year: int, month: int, byDate: map<Day, seq<Entry>>, k: int)
    requires 1 <= month <= 12
    ensures var cells := Grid(year, month, byDate);
      var first := Ordinal(year, month, 1);
      var blanks := Weekday(first);
      && |cells| == blanks + DaysInMonth(year, month)
      && blanks < 7
      && (forall i :: 0 <= i < blanks ==> cells[i].None?)
      && (1 <= k <= DaysInMonth(year, month) ==>
            cells[blanks + k - 1] == Some(Cell(first + k - 1, k, Lookup(byDate, first + k - 1))))
  {
    var n := DaysInMonth(year, month);
    var blanks := Blanks(Weekday(Ordinal(year, month, 1)));
    DayCellsAt(year, month, n, byDate, 1);
    if 1 <= k <= n {
      DayCellsAt(year, month, n, byDate, k);
      assert Grid(year, month, byDate)[|blanks| + k - 1] == DayCells(year, month, n, byDate)[k - 1];
    }
  }

  /** The page the calendar view renders for a valid month. */
  function CalendarSpec(year: int, month: int, today: Day, requests: seq<RequestRecord>, table: seq<EquipmentRecord>): CalendarPage
    requires 1 <= month <= 12
  {
    var cells := Grid(year, month, Group(AllEntries(year, month, today, requests, table)));
    var (py, pm) := PrevMonth(year, month);
    var (ny, nm) := NextMonth(year, month);
    CalendarPage(year, month, cells, py, pm, ny, nm, today)
  }

  /** The grid: as many blanks as the weekday of the 1st (Monday 0), then one
      cell per day of the month numbered from 1, each listing the entries of
      its date. */
  lemma CalendarGrid(year: int, month: int, today: Day, requests: seq<RequestRecord>, table: seq<EquipmentRecord>, k: int)
    requires 1 <= month <= 12
    ensures var page := CalendarSpec(year, month, today, requests, table);
      var first := Ordinal(year, month, 1);
      var blanks := Weekday(first);
      && |page.cells| == blanks + DaysInMonth(year, month)
      && blanks < 7
      && (forall i :: 0 <= i < blanks ==> page.cells[i].None?)
      && (1 <= k <= DaysInMonth(year, month) ==>
            page.cells[blanks + k - 1]
            == Some(Cell(first + k - 1, k, OnDate(AllEntries(year, month, today, requests, table), first + k - 1))))
  {
    var entries := AllEntries(year, month, today, requests, table);
    GridCells(year, month, Group(entries), k);
    if 1 <= k <= DaysInMonth(year, month) {
      GroupLookup(entries, Ordinal(year, month, 1) + k - 1);
    }
  }

  /** February 2024 starts on a Thursday and has 29 days: three blanks, then
      29 day cells. */
  lemma February2024Grid(today: Day, requests: seq<RequestRecord>, table: seq<EquipmentRecord>)
    ensures |CalendarSpec(2024, 2, today, requests, table).cells| == 32
    ensures Weekday(Ordinal(2024, 2, 1)) == 3
  {
    NewYear2024IsMonday();
    FebruaryLengths();
    CalendarGrid(2024, 2, today, requests, table, 1);
  }

  // ---------------------------------------------------------------------
  // The view

  lemma ProjectedStep(table: seq<EquipmentRecord>, requests: seq<RequestRecord>, end: Day, today: Day, j: int)
    requires 0 <= j < |table|
    ensures AllProjected(table[..j + 1], requests, end, today)
         == AllProjected(table[..j], requests, end, today) + ProjectedFor(table[j], requests, end, today)
  {
    assert table[..j + 1][..j] == table[..j];
  }

  lemma ConcatAssoc(a: seq<Entry>, b: seq<Entry>, c: seq<Entry>)
    ensures (a + b) + c == a + (b + c)
  {
  }

  lemma ExplicitStep(requests: seq<RequestRecord>, table: seq<EquipmentRecord>, start: Day, end: Day, i: int)
    requires 0 <= i < |requests|
    ensures ExplicitEntries(requests[..i + 1], table, start, end)
         == ExplicitEntries(requests[..i], table, start, end)
            + (if ShownAsScheduled(requests[i], start, end) then [ScheduledEntry(requests[i], table)] else [])
  {
    assert requests[..i + 1][..i] == requests[..i];
  }

  lemma GroupAppend(s: seq<Entry>, e: Entry)
    ensures Group(s + [e]) == Group(s)[e.date := Lookup(Group(s), e.date) + [e]]
  {
    assert (s + [e])[..|s|] == s;
  }

  /** The first loop of the view: each scheduled request appended to its
      date's list. */
  method CollectScheduled(requests: seq<RequestRecord>, table: seq<EquipmentRecord>, start: Day, end: Day)
    returns (byDate: map<Day, seq<Entry>>, ghost added: seq<Entry>)
    ensures added == ExplicitEntries(requests, table, start, end)
    ensures byDate == Group(added)
  {
    byDate := map[];
    added := [];
    for i := 0 to |requests|
      invariant added == ExplicitEntries(requests[..i], table, start, end)
      invariant byDate == Group(added)
    {
      var r := requests[i];
      ExplicitStep(requests, table, start, end, i);
      if ShownAsScheduled(r, start, end) {
        var entry := ScheduledEntry(r, table);
        var list := if entry.date in byDate then byDate[entry.date] else [];
        byDate := byDate[entry.date := list + [entry]];
        GroupAppend(added, entry);
        added := added + [entry];
      }
    }
    assert requests[..|requests|] == requests;
  }

  /** The inner `while` loop of the view: the due dates of one piece of
      equipment, from `next` one interval at a time while within the month,
      each appended to its date's list unless the date is taken. */
  method CollectProjections(e: EquipmentRecord, requests: seq<RequestRecord>, next: Day, end: Day,
                            byDate: map<Day, seq<Entry>>, ghost added: seq<Entry>)
    returns (byDate': map<Day, seq<Entry>>, ghost added': seq<Entry>)
    requires e.intervalDays.Some? && e.intervalDays.value > 0
    requires byDate == Group(added)
    ensures added' == added + Projections(e, requests, next, end)
    ensures byDate' == Group(added')
  {
    byDate', added' := byDate, added;
    var current := next;
    var interval := e.intervalDays.value;
    while current <= end
      invariant added' + Projections(e, requests, current, end) == added + Projections(e, requests, next, end)
      invariant byDate' == Group(added')
      decreases end - current
    {
      ghost var rest := Projections(e, requests, current + interval, end);
      if !Suppressed(requests, e.id, current) {
        var entry := IntervalEntry(e, current);
        assert Projections(e, requests, current, end) == [entry] + rest;
        var list := if current in byDate' then byDate'[current] else [];
        byDate' := byDate'[current := list + [entry]];
        GroupAppend(added', entry);
        ConcatAssoc(added', [entry], rest);
        added' := added' + [entry];
      } else {
        assert Projections(e, requests, current, end) == rest;
      }
      current := current + interval;
    }
  }

  /** The grid loops of the view: the blank cells, then one cell per day. */
  method BuildGrid(year: int, month: int, byDate: map<Day, seq<Entry>>) returns (cells: seq<Option<Cell>>)
    requires 1 <= month <= 12
    ensures cells == Grid(year, month, byDate)
  {
    cells := [];
    var firstWeekday := Weekday(Ordinal(year, month, 1));
    for k := 0 to firstWeekday
      invariant cells == Blanks(k)
    {
      cells := cells + [None];
    }
    var lastDay := DaysInMonth(year, month);
    for day := 1 to lastDay + 1
      invariant cells == Blanks(firstWeekday) + DayCells(year, month, day - 1, byDate)
    {
      var date := Ordinal(year, month, day);
      var list := if date in byDate then byDate[date] else [];
      cells := cells + [Some(Cell(date, day, list))];
    }
  }

  /** `PreventiveMaintenanceCalendarView.get_context_data` for the given
      month: an impossible month makes `datetime` fail; otherwise the page
      is built with loops as the view does, and is the page above. */
  method BuildCalendar(year: int, month: int, today: Day, requests: seq<RequestRecord>, table: seq<EquipmentRecord>)
    returns (page: Result<CalendarPage, string>)
    ensures page.Failure? <==> !ValidMonth(year, month)
    ensures page.Success? ==> page.value == CalendarSpec(year, month, today, requests, table)
  {
    if !(1 <= year <= 9999) {
      return Failure("year is out of range");
    }
    if !(1 <= month <= 12) {
      return Failure("month must be in 1..12");
    }
    var start := Ordinal(year, month, 1);
    var lastDay := DaysInMonth(year, month);
    var end := Ordinal(year, month, lastDay);

    var byDate, added := CollectScheduled(requests, table, start, end);
    ghost var scheduled := added;
    for j := 0 to |table|
      invariant added == scheduled + AllProjected(table[..j], requests, end, today)
      invariant byDate == Group(added)
    {
      var e := table[j];
      ghost var before := added;
      if Eligible(e) {
        var next := NextMaintenanceDate(e, requests, today);
        if next.Some? && next.value <= end {
          byDate, added := CollectProjections(e, requests, next.value, end, byDate, added);
        }
      }
      ghost var ap, pf := AllProjected(table[..j], requests, end, today), ProjectedFor(e, requests, end, today);
      assert added == before + pf;
      ConcatAssoc(scheduled, ap, pf);
      ProjectedStep(table, requests, end, today, j);
    }
    assert table[..|table|] == table;
    assert added == AllEntries(year, month, today, requests, table);

    var cells := BuildGrid(year, month, byDate);
    var (prevYear, prevMonth) := if month == 1 then (year - 1, 12) else (year, month - 1);
    var (nextYear, nextMonth) := if month == 12 then (year + 1, 1) else (year, month + 1);
    page := Success(CalendarPage(year, month, cells, prevYear, prevMonth, nextYear, nextMonth, today));
  }
}

=== FILE: dates.dfy ===
/** Proleptic Gregorian calendar arithmetic on day ordinals, as Python's
    `datetime.date` does it: day 1 is 0001-01-01, adding a `timedelta` of
    n days adds n to the ordinal, and `weekday()` numbers Monday 0. */
module Dates {

  /** A calendar date as its ordinal (`date.toordinal()`). */
  type Day = int

  /** A point in time in whole seconds. */
  type Seconds = int

  predicate IsLeap(year: int) {
    year % 4 == 0 && (year % 100 != 0 || year % 400 == 0)
  }

  function YearLength(year: int): int {
    if IsLeap(year) then 366 else 365
  }

  /** The years and months that `datetime(year, month, 1)` accepts. */
  predicate ValidMonth(year: int, month: int) {
    1 <= year <= 9999 && 1 <= month <= 12
  }

  /** The number of days of a month (`calendar.monthrange(year, month)[1]`). */
  function DaysInMonth(year: int, month: int): (n: int)
    requires 1 <= month <= 12
    ensures 28 <= n <= 31
    ensures month == 2 ==> (n == 29 <==> IsLeap(year)) && (n == 28 <==> !IsLeap(year))
    ensures month != 2 ==> (n == 30 <==> month in {4, 6, 9, 11})
  {
    if month == 2 then (if IsLeap(year) then 29 else 28)
    else if month in {4, 6, 9, 11} then 30
    else 31
  }

  /** Days in the months of `year` before `month`. */
  function DaysBeforeMonth(year: int, month: int): int
    requires 1 <= month <= 12
  {
    [0, 31, 59, 90, 120, 151, 181, 212, 243, 273, 304, 334][month - 1]
      + (if month > 2 && IsLeap(year) then 1 else 0)
  }

  /** Days in the years before `year`, counted from 0001-01-01. */
  function DaysBeforeYear(year: int): int {
    var y := year - 1;
    365 * y + y / 4 - y / 100 + y / 400
  }

  /** The ordinal of `date(year, month, day)`. */
  function Ordinal(year: int, month: int, day: int): Day
    requires 1 <= month <= 12
  {
    DaysBeforeYear(year) + DaysBeforeMonth(year, month) + day
  }

  /** `date.weekday()`: Monday is 0 and Sunday is 6. */
  function Weekday(d: Day): (w: int)
    ensures 0 <= w < 7
  {
    (d + 6) % 7
  }

  /** Python's `round(seconds / 3600, 2)`, kept exact: the duration in
      hundredths of an hour, a half-hundredth rounded up. */
  function HundredthsOfHour(seconds: Seconds): (h: int)
    ensures 36 * h - 18 <= seconds < 36 * h + 18
  {
    (seconds + 18) / 36
  }

  lemma OneHourIsOneHundredHundredths()
    ensures HundredthsOfHour(3600) == 100
    ensures HundredthsOfHour(0) == 0
  {
  }

  /** Stepping over a multiple of k adds exactly one to the quotient. */
  lemma DivStep(y: int, k: int)
    requires k in {4, 100, 400}
    ensures y / k - (y - 1) / k == if y % k == 0 then 1 else 0
  {
    var q, r := (y - 1) / k, (y - 1) % k;
    assert y - 1 == k * q + r && 0 <= r < k;
    if r == k - 1 {
      assert y == k * (q + 1) + 0;
    } else {
      assert y == k * q + (r + 1) && 0 <= r + 1 < k;
    }
  }

  /** Each month starts where the previous one ends, and the months of a
      year add up to the year's length. */
  lemma MonthsFillYear(year: int, month: int)
    requires 1 <= month <= 12
    ensures month < 12 ==> DaysBeforeMonth(year, month + 1) == DaysBeforeMonth(year, month) + DaysInMonth(year, month)
    ensures month == 12 ==> DaysBeforeMonth(year, 12) + DaysInMonth(year, 12) == YearLength(year)
  {
  }

  /** Consecutive years abut: a year starts where the previous one ends. */
  lemma {:induction false} YearsAbut(year: int)
    ensures DaysBeforeYear(year + 1) == DaysBeforeYear(year) + YearLength(year)
  {
    DivStep(year, 4);
    DivStep(year, 100);
    DivStep(year, 400);
    LeapDivisibility(year);
  }

  lemma LeapDivisibility(year: int)
    ensures year % 400 == 0 ==> year % 100 == 0
    ensures year % 100 == 0 ==> year % 4 == 0
  {
    if year % 400 == 0 {
      var t := 4 * (year / 400);
      assert year == 100 * t;
    }
    if year % 100 == 0 {
      var t := 25 * (year / 100);
      assert year == 4 * t;
    }
  }

  /** The last day of a month is followed by the first day of the month after
      it, across the end of a year too. */
  lemma MonthsAbut(year: int, month: int)
    requires 1 <= month <= 12
    ensures month < 12 ==> Ordinal(year, month, DaysInMonth(year, month)) + 1 == Ordinal(year, month + 1, 1)
    ensures month == 12 ==> Ordinal(year, 12, 31) + 1 == Ordinal(year + 1, 1, 1)
  {
    MonthsFillYear(year, month);
    if month == 12 {
      YearsAbut(year);
    }
  }

  /** The days of a month are consecutive ordinals. */
  lemma DaysOfMonthConsecutive(year: int, month: int, day: int)
    requires 1 <= month <= 12
    ensures Ordinal(year, month, day) + 1 == Ordinal(year, month, day + 1)
  {
  }

  /** The weekday advances by one a day, wrapping from Sunday to Monday. */
  lemma WeekdayNext(d: Day)
    ensures Weekday(d + 1) == (Weekday(d) + 1) % 7
  {
  }

  /** 0001-01-01 is day 1 and a Monday. */
  lemma FirstDayIsMonday()
    ensures Ordinal(1, 1, 1) == 1
    ensures Weekday(1) == 0
  {
    assert DaysBeforeYear(1) == 0;
    assert DaysBeforeMonth(1, 1) == 0;
    assert Weekday(1) == 7 % 7;
    assert 7 % 7 == 0;
  }

  /** 2024-01-01 was a Monday. */
  lemma NewYear2024IsMonday()
    ensures Weekday(Ordinal(2024, 1, 1)) == 0
  {
    var y := 2023;
    assert y / 4 == 505 by { assert y == 4 * 505 + 3; }
    assert y / 100 == 20 by { assert y == 100 * 20 + 23; }
    assert y / 400 == 5 by { assert y == 400 * 5 + 23; }
    assert Ordinal(2024, 1, 1) == 738886;
    assert 738892 == 7 * 105556;
  }

  /** Leap years: 2024 and 2000 have a 29-day February, 2023 and 1900 do not. */
  lemma FebruaryLengths()
    ensures DaysInMonth(2024, 2) == 29 && DaysInMonth(2000, 2) == 29
    ensures DaysInMonth(2023, 2) == 28 && DaysInMonth(1900, 2) == 28
  {
    assert 2024 == 4 * 506 && 2024 == 100 * 20 + 24;
    assert 2000 == 400 * 5;
    assert 2023 == 4 * 505 + 3;
    assert 1900 == 100 * 19 && 1900 == 400 * 4 + 300;
  }

  /** 2023-04-15 is 90 days after 2023-01-15. */
  lemma NinetyDaysAfterJanuary15()
    ensures Ordinal(2023, 1, 15) + 90 == Ordinal(2023, 4, 15)
  {
  }
}

=== FILE: decorators.dfy ===
/** The role-checking decorator for function views and its five fixed-role
    specialisations. The decorated view is a function of the request and
    its arguments; the guard itself changes nothing. */
module Decorators {
  import opened Wrappers
  import opened Identity
  import RoleUtils

  /** `sep.join(parts)`. */
  function Join(parts: seq<string>, sep: string): string {
    if |parts| == 0 then ""
    else if |parts| == 1 then parts[0]
    else parts[0] + sep + Join(parts[1..], sep)
  }

  /** `role_required(*allowed)(view)(request, args)`. `login_required` runs
      first and sends an anonymous visitor to the login page; a user without
      a profile is refused before any role is compared; a user whose role is
      not allowed is refused with the list of required roles; anyone else
      reaches the view with the request and arguments as given. */
  function RoleRequired<Req, R>(allowed: seq<string>, view: (Principal, Req) -> R, who: Principal, req: Req): (g: Gate<R>)
    ensures g.ToLogin? <==> who.Anonymous?
    ensures who.SignedIn? && who.profile.None? ==> g == Refused(PROFILE_MISSING)
    ensures g.Admitted? <==> RoleOf(who).Some? && RoleOf(who).value in allowed
    ensures g.Admitted? ==> g.response == view(who, req)
    ensures g.Refused? && RoleOf(who).Some? ==> g.message == "Access denied. Required roles: " + Join(allowed, ", ")
  {
    match who
    case Anonymous => ToLogin
    case SignedIn(_, profile) =>
      if profile.None? then Refused(PROFILE_MISSING)
      else if profile.value.role !in allowed then Refused("Access denied. Required roles: " + Join(allowed, ", "))
      else Admitted(view(who, req))
  }

  /** The five fixed-role decorators. */
  datatype Decorator =
    | AdminRequired | ManagerRequired | TechnicianRequired | UserRequired | AdminOrManagerRequired

  /** The roles each fixed-role decorator passes to `role_required`. */
  function AllowedRoles(d: Decorator): seq<string> {
    match d
    case AdminRequired => [ADMIN]
    case ManagerRequired => [MANAGER]
    case TechnicianRequired => [TECHNICIAN]
    case UserRequired => [USER]
    case AdminOrManagerRequired => [ADMIN, MANAGER]
  }

  /** Applying a fixed-role decorator to a view. */
  function Decorate<Req, R>(d: Decorator, view: (Principal, Req) -> R, who: Principal, req: Req): Gate<R> {
    RoleRequired(AllowedRoles(d), view, who, req)
  }

  /** Each fixed-role decorator admits exactly the users whose role is its
      own (both Admin and Manager for `admin_or_manager_required`), and
      admitted users reach the view unchanged. */
  lemma DecoratorsAdmitExactly<Req, R>(d: Decorator, view: (Principal, Req) -> R, who: Principal, req: Req)
    ensures var g := Decorate(d, view, who, req);
      && (d == AdminRequired ==> (g.Admitted? <==> RoleOf(who) == Some(ADMIN)))
      && (d == ManagerRequired ==> (g.Admitted? <==> RoleOf(who) == Some(MANAGER)))
      && (d == TechnicianRequired ==> (g.Admitted? <==> RoleOf(who) == Some(TECHNICIAN)))
      && (d == UserRequired ==> (g.Admitted? <==> RoleOf(who) == Some(USER)))
      && (d == AdminOrManagerRequired ==> (g.Admitted? <==> RoleOf(who) in {Some(ADMIN), Some(MANAGER)}))
      && (g.Admitted? ==> g.response == view(who, req))
  {
  }

  /** The decorator agrees with `has_role`: a signed-in user reaches the view
      exactly when `has_role(user, *allowed)` holds. */
  lemma RoleRequiredIsHasRole<Req, R>(allowed: seq<string>, view: (Principal, Req) -> R, who: Principal, req: Req)
    ensures RoleRequired(allowed, view, who, req).Admitted? <==> RoleUtils.HasRole(who, allowed)
  {
  }
}

=== FILE: forms.dfy ===
/** The forms of the maintenance app that carry rules: the technician's
    update form (which stages may follow the current one, and a resolution
    summary before Repaired), the two forms that create requests, and the
    sign-up form. Submitted data arrives as text and is validated here;
    a form that validates yields the values `form_valid` works with. */
module Forms {
  import opened Wrappers
  import opened Dates
  import opened Identity
  import opened Models

  const REQUIRED: string := "This field is required."
  const INVALID_MODEL_CHOICE: string := "Select a valid choice. That choice is not one of the available choices."

  function InvalidChoice(value: string): string {
    "Select a valid choice. " + value + " is not one of the available choices."
  }

  // ---------------------------------------------------------------------
  // Text fields: Django's CharField strips what is typed before it checks it

  /** The characters Python's `str.isspace` accepts, which `str.strip`
      removes from both ends of a string. */
  predicate IsSpace(c: char) {
    || c == ' ' || '\t' <= c <= '\r' || '\U{001C}' <= c <= '\U{001F}'
    || c == '\U{0085}' || c == '\U{00A0}' || c == '\U{1680}' || '\U{2000}' <= c <= '\U{200A}'
    || c == '\U{2028}' || c == '\U{2029}' || c == '\U{202F}' || c == '\U{205F}' || c == '\U{3000}'
  }

  /** Text made of whitespace only (the empty text included). */
  predicate Blank(s: string) {
    forall i :: 0 <= i < |s| ==> IsSpace(s[i])
  }

  /** `s.lstrip()`: `s` without the whitespace at its start. */
  function StripLeft(s: string): (t: string)
    ensures |t| <= |s|
    decreases |s|
  {
    if s != "" && IsSpace(s[0]) then StripLeft(s[1..]) else s
  }

  /** `s.rstrip()`: `s` without the whitespace at its end. */
  function StripRight(s: string): (t: string)
    ensures |t| <= |s|
    decreases |s|
  {
    if s != "" && IsSpace(s[|s| - 1]) then StripRight(s[..|s| - 1]) else s
  }

  /** `lstrip` removes a blank head and keeps a suffix that does not start
      with whitespace. */
  lemma {:induction false} StripLeftShape(s: string)
    ensures var t := StripLeft(s);
      && t == s[|s| - |t|..] && Blank(s[..|s| - |t|])
      && (t != "" ==> !IsSpace(t[0]))
    decreases |s|
  {
    if s != "" && IsSpace(s[0]) {
      StripLeftShape(s[1..]);
      var t := StripLeft(s[1..]);
      assert s[..|s| - |t|] == [s[0]] + s[1..][..|s| - 1 - |t|];
    }
  }

  /** `rstrip` removes a blank tail and keeps a prefix that does not end
      with whitespace. */
  lemma {:induction false} StripRightShape(s: string)
    ensures var t := StripRight(s);
      && t == s[..|t|] && Blank(s[|t|..])
      && (t != "" ==> !IsSpace(t[|t| - 1]))
    decreases |s|
  {
    if s != "" && IsSpace(s[|s| - 1]) {
      StripRightShape(s[..|s| - 1]);
      var t := StripRight(s[..|s| - 1]);
      assert s[|t|..] == s[..|s| - 1][|t|..] + [s[|s| - 1]];
    }
  }

  /** `s.strip()`: `s` without the whitespace at either end. */
  function Strip(s: string): (t: string)
    ensures |t| <= |s|
  {
    StripRight(StripLeft(s))
  }

  /** What stripping keeps: the part of `s` between a blank head and a blank
      tail, neither starting nor ending with whitespace, and empty exactly
      when `s` is blank. */
  lemma StripShape(s: string)
    ensures var t := Strip(s); var a := |s| - |StripLeft(s)|;
      && a + |t| <= |s| && t == s[a..a + |t|]
      && Blank(s[..a]) && Blank(s[a + |t|..])
      && (t != "" ==> !IsSpace(t[0]) && !IsSpace(t[|t| - 1]))
      && (t == "" <==> Blank(s))
  {
    var l := StripLeft(s);
    var t := StripRight(l);
    var a := |s| - |l|;
    StripLeftShape(s);
    StripRightShape(l);
    assert l == s[a..];
    assert t == l[..|t|];
    assert t == s[a..a + |t|];
    assert s[a + |t|..] == l[|t|..];
    if t == "" {
      assert l[|t|..] == l;
      assert a == |s|;
      assert s[..a] == s;
    } else {
      assert s[a] == t[0];
    }
  }

  /** Stripping twice strips nothing more. */
  lemma StripIdempotent(s: string)
    ensures Strip(Strip(s)) == Strip(s)
  {
    StripShape(s);
    var t := Strip(s);
    if t != "" {
      StripLeftShape(t);
      StripRightShape(t);
      assert StripLeft(t) == t;
      assert StripRight(t) == t;
    }
  }

  /** The cleaned value of an optional `TextField` (`blank=True, null=True`):
      its form field is a plain `CharField`, whose empty value is "", so the
      text is stored stripped, and "" when nothing but whitespace was typed
      or nothing was sent at all. The form never stores no value. */
  function CleanText(t: Option<string>): (c: Option<string>)
    ensures c.Some? && |c.value| <= |t.GetOr("")|
  {
    Some(Strip(t.GetOr("")))
  }

  /** A cleaned text is filled exactly when something other than whitespace
      was typed; it is blank only when it is empty, it is empty exactly when
      nothing else was typed, and cleaning it again changes nothing. */
  lemma CleanTextMeaning(t: Option<string>)
    ensures Filled(CleanText(t)) <==> t.Some? && !Blank(t.value)
    ensures Blank(CleanText(t).value) <==> CleanText(t).value == ""
    ensures CleanText(t).value == "" <==> t.None? || Blank(t.value)
    ensures CleanText(CleanText(t)) == CleanText(t)
  {
    var text := t.GetOr("");
    StripShape(text);
    StripShape(Strip(text));
    StripIdempotent(text);
    assert Blank("");
  }

  function MaxLengthMessage(limit: nat, length: nat): string {
    "Ensure this value has at most " + NatToString(limit) + " characters (it has " + NatToString(length) + ")."
  }

  function MinLengthMessage(limit: nat, length: nat): string {
    "Ensure this value has at least " + NatToString(limit) + " characters (it has " + NatToString(length) + ")."
  }

  /** The checks of a `CharField` with `max_length` on its stripped value:
      required when `required` is set, and no longer than `maxLength`. It
      finds at most one error, on `field`. */
  function CharFieldErrors(field: string, value: string, required: bool, maxLength: nat): (errors: seq<FieldError>)
    ensures errors == [] <==> (value != "" || !required) && |value| <= maxLength
    ensures |errors| <= 1 && forall e :: e in errors ==> e.field == field
  {
    if value == "" && required then [FieldError(field, REQUIRED)]
    else if |value| > maxLength then [FieldError(field, MaxLengthMessage(maxLength, |value|))]
    else []
  }

  // ---------------------------------------------------------------------
  // TechnicianRequestUpdateForm

  /** The stages the technician form offers: from New the request may stay
      New or start; once In Progress it may stay, be Repaired or be
      scrapped; Repaired and Scrap offer only themselves. An instance not
      yet saved counts as New. */
  function TechnicianStageChoices(saved: bool, current: Stage): (choices: seq<Stage>)
    ensures (if saved then current else New) in choices
  {
    var stage := if saved then current else New;
    match stage
    case New => [New, InProgress]
    case InProgress => [InProgress, Repaired, Scrap]
    case Repaired => [Repaired]
    case Scrap => [Scrap]
  }

  /** How far along the lifecycle a stage is. */
  function Progress(s: Stage): nat {
    match s
    case New => 0
    case InProgress => 1
    case Repaired => 2
    case Scrap => 2
  }

  /** Through the technician form a saved request never moves backwards:
      every offered stage is the current one or a later one. The offer from
      each stage is fixed completely: a closed request can only stay as it
      is, a New request may stay New or start but not be closed, and a
      request In Progress may go anywhere but back to New. */
  lemma TechnicianChoicesMoveForward(current: Stage, next: Stage)
    ensures next in TechnicianStageChoices(true, current) ==> Progress(current) <= Progress(next)
    ensures IsClosed(current) ==> (next in TechnicianStageChoices(true, current) <==> next == current)
    ensures current == New ==> (next in TechnicianStageChoices(true, current) <==> !IsClosed(next))
    ensures current == InProgress ==> (next in TechnicianStageChoices(true, current) <==> next != New)
  {
  }

  /** A form on a request not yet saved offers what a New request offers,
      whatever its stage field says. */
  lemma UnsavedFormCountsAsNew(current: Stage)
    ensures TechnicianStageChoices(false, current) == TechnicianStageChoices(true, New)
    ensures TechnicianStageChoices(false, current) == [New, InProgress]
  {
  }

  /** The data a technician submits, as typed (the notes and the summary are
      absent when the field was not sent). The duration is in hundredths of
      an hour. */
  datatype TechnicianForm = TechnicianForm(
    stage: string,
    duration: Option<int>,
    technicianNotes: Option<string>,
    resolutionSummary: Option<string>)

  const SUMMARY_REQUIRED: string := "Resolution summary is required when marking request as Repaired."
  const DURATION_NEGATIVE: string := "Ensure this value is greater than or equal to 0."
  const DURATION_TOO_LONG: string := "Ensure that there are no more than 10 digits in total."

  /** `duration_hours` holds at most ten digits, two of them after the
      decimal point: in hundredths, less than 10^10 in size. */
  const DURATION_BOUND: int := 10000000000

  /** `TechnicianRequestUpdateForm.clean` on the cleaned stage and summary:
      a request may not be marked Repaired without a resolution summary;
      Scrap needs none. */
  function TechnicianClean(stage: Stage, resolutionSummary: Option<string>): (errors: seq<FieldError>)
    ensures errors != [] <==> stage == Repaired && !Filled(resolutionSummary)
    ensures errors != [] ==> errors == [FieldError("resolution_summary", SUMMARY_REQUIRED)]
  {
    if stage == Repaired && !Filled(resolutionSummary) then [FieldError("resolution_summary", SUMMARY_REQUIRED)]
    else []
  }

  /** The whole validation of the technician form against the request it
      edits, in the order Django finds the errors: the fields (a stage the
      current one offers; a duration of at most ten digits), then `clean`
      on a stage that passed (with the summary stripped), then the model's
      own validators, where a negative duration is refused. A form passes
      exactly when the stage is offered, the duration (if any) lies in
      [0, 10^10) and a Repaired stage comes with a summary that is not
      blank. */
  function TechnicianFormErrors(r: RequestRecord, form: TechnicianForm): (errors: seq<FieldError>)
    ensures errors == [] <==>
      && ParseStage(form.stage).Some?
      && ParseStage(form.stage).value in TechnicianStageChoices(true, r.stage)
      && (form.duration.None? || 0 <= form.duration.value < DURATION_BOUND)
      && (form.stage == "Repaired" ==> form.resolutionSummary.Some? && !Blank(form.resolutionSummary.value))
  {
    CleanTextMeaning(form.resolutionSummary);
    var stage := ParseStage(form.stage);
    var stageErrors :=
      if form.stage == "" then [FieldError("stage", REQUIRED)]
      else if stage.None? || stage.value !in TechnicianStageChoices(true, r.stage) then [FieldError("stage", InvalidChoice(form.stage))]
      else [];
    var digitErrors :=
      if form.duration.Some? && (form.duration.value >= DURATION_BOUND || form.duration.value <= -DURATION_BOUND)
      then [FieldError("duration_hours", DURATION_TOO_LONG)]
      else [];
    var cleanErrors := if stageErrors == [] then TechnicianClean(stage.value, CleanText(form.resolutionSummary)) else [];
    var modelErrors :=
      if digitErrors == [] && form.duration.Some? && form.duration.value < 0 then [FieldError("duration_hours", DURATION_NEGATIVE)]
      else [];
    stageErrors + digitErrors + cleanErrors + modelErrors
  }

  /** A technician cannot mark a request Repaired without a resolution
      summary, and can mark it Scrap without one (from In Progress); a
      summary of whitespace only counts as none. */
  lemma RepairedNeedsSummaryScrapDoesNot(r: RequestRecord, form: TechnicianForm)
    requires r.stage == InProgress && (form.resolutionSummary.None? || Blank(form.resolutionSummary.value))
    requires form.duration.None?
    ensures form.stage == "Repaired" ==> TechnicianFormErrors(r, form) == [FieldError("resolution_summary", SUMMARY_REQUIRED)]
    ensures form.stage == "Scrap" ==> TechnicianFormErrors(r, form) == []
  {
    CleanTextMeaning(form.resolutionSummary);
  }

  /** The model's minimum on the duration is checked after `clean`: a
      Repaired form with no summary and a negative duration reports the
      summary first. */
  lemma NegativeDurationReportedAfterClean(r: RequestRecord, hours: int)
    requires r.stage == InProgress && -DURATION_BOUND < hours < 0
    ensures TechnicianFormErrors(r, TechnicianForm("Repaired", Some(hours), None, None))
         == [FieldError("resolution_summary", SUMMARY_REQUIRED), FieldError("duration_hours", DURATION_NEGATIVE)]
  {
  }

  /** The instance after the form's cleaned fields are copied onto it: the
      stage and the duration as given, the notes and the summary stripped
      (and "" when blank or not sent). Nothing else changes. */
  function ApplyTechnicianForm(r: RequestRecord, form: TechnicianForm, stage: Stage): (r': RequestRecord)
    ensures r' == r.(stage := stage, duration := form.duration, technicianNotes := r'.technicianNotes,
                     resolutionSummary := r'.resolutionSummary)
    ensures r'.technicianNotes == CleanText(form.technicianNotes) && r'.resolutionSummary == CleanText(form.resolutionSummary)
  {
    r.(stage := stage, duration := form.duration, technicianNotes := CleanText(form.technicianNotes),
       resolutionSummary := CleanText(form.resolutionSummary))
  }

  // ---------------------------------------------------------------------
  // MaintenanceRequestUpdateForm (managers and administrators)

  /** The priority is a required choice among the four priorities; a choice
      field does not strip. */
  function PriorityErrors(priority: string): (errors: seq<FieldError>)
    ensures errors == [] <==> ParsePriority(priority).Some?
    ensures forall e :: e in errors ==> e.field == "priority"
  {
    if priority == "" then [FieldError("priority", REQUIRED)]
    else if ParsePriority(priority).None? then [FieldError("priority", InvalidChoice(priority))]
    else []
  }

  /** The data a manager submits: any of the four stages may be chosen, and
      the stage and the priority arrive as posted. */
  datatype ManagerForm = ManagerForm(technician: Option<UserId>, stage: string, priority: string)

  /** The manager form offers every stage, and only users whose profile role
      is Technician as the assigned technician (or nobody). */
  function ManagerFormErrors(form: ManagerForm, technicians: set<UserId>): (errors: seq<FieldError>)
    ensures errors == [] <==>
      && ParseStage(form.stage).Some? && (form.technician.None? || form.technician.value in technicians)
      && ParsePriority(form.priority).Some?
  {
    (if form.technician.Some? && form.technician.value !in technicians then [FieldError("assigned_technician", INVALID_MODEL_CHOICE)] else [])
    + (if form.stage == "" then [FieldError("stage", REQUIRED)]
       else if ParseStage(form.stage).None? then [FieldError("stage", InvalidChoice(form.stage))]
       else [])
    + PriorityErrors(form.priority)
  }

  /** A manager's form naming a priority that is not one of the four is
      refused, with the one error on `priority`. */
  lemma UnknownPriorityRefused(technicians: set<UserId>)
    ensures ManagerFormErrors(ManagerForm(None, "New", "Urgent"), technicians) == [FieldError("priority", InvalidChoice("Urgent"))]
  {
    assert ParseStage("New") == Some(New);
    assert "Urgent"[0] != "Low"[0] && "Urgent"[0] != "Medium"[0] && "Urgent"[0] != "High"[0] && "Urgent"[0] != "Critical"[0];
  }

  // ---------------------------------------------------------------------
  // UserBreakdownRequestForm

  /** A breakdown report from a regular user, the subject and the priority
      as typed. */
  datatype BreakdownForm = BreakdownForm(subject: string, equipmentId: nat, priority: string)

  const SUBJECT_MAX_LENGTH: nat := 255

  /** A report needs a subject of at most 255 characters once stripped, and
      only equipment that is not scrapped can be reported broken. */
  function BreakdownFormErrors(form: BreakdownForm, equipment: map<nat, EquipmentRecord>): (errors: seq<FieldError>)
    ensures errors == [] <==>
      && !Blank(form.subject) && |Strip(form.subject)| <= SUBJECT_MAX_LENGTH
      && form.equipmentId in equipment && !equipment[form.equipmentId].isScrapped
      && ParsePriority(form.priority).Some?
  {
    StripShape(form.subject);
    CharFieldErrors("subject", Strip(form.subject), true, SUBJECT_MAX_LENGTH)
    + (if form.equipmentId !in equipment || equipment[form.equipmentId].isScrapped then [FieldError("equipment", INVALID_MODEL_CHOICE)] else [])
    + PriorityErrors(form.priority)
  }

  /** The request `UserCreateRequestView.form_valid` and
      `UserBreakdownRequestForm.save` store: Corrective, New, created by the
      user, handled by the equipment's team, then saved (so not overdue: it
      has no scheduled date). The subject is stored stripped. */
  function BreakdownRequest(form: BreakdownForm, e: EquipmentRecord, creator: UserId, id: nat, today: Day): (r: RequestRecord)
    requires form.equipmentId == e.id && ParsePriority(form.priority).Some?
    ensures r.requestType == Corrective && r.stage == New && r.createdBy == creator
    ensures PriorityName(r.priority) == form.priority
    ensures r.team == Some(e.team) && r.equipmentId == e.id
    ensures r.technician.None? && r.scheduledDate.None? && !r.isOverdue
    ensures r.startTime.None? && r.endTime.None? && r.completedDate.None? && r.duration.None?
    ensures r.subject == Strip(form.subject)
  {
    var row := RequestRecord(id, Strip(form.subject), Corrective, New, ParsePriority(form.priority).value, form.equipmentId, Some(e.team),
      None, creator, None, None, None, None, None, false, None, None);
    Saved(row, today)
  }

  // ---------------------------------------------------------------------
  // PreventiveMaintenanceForm

  /** A preventive request scheduled by a manager or an administrator. */
  datatype PreventiveForm = PreventiveForm(
    subject: string,
    equipmentId: nat,
    team: Option<TeamId>,
    technician: Option<UserId>,
    scheduledDate: Option<Day>,
    priority: string)

  /** The subject is required and at most 255 characters once stripped; the
      form offers only equipment that is not scrapped, only active teams and
      only technicians. */
  function PreventiveFormErrors(form: PreventiveForm, equipment: map<nat, EquipmentRecord>, activeTeams: set<TeamId>, technicians: set<UserId>): (errors: seq<FieldError>)
    ensures errors == [] <==>
      && !Blank(form.subject) && |Strip(form.subject)| <= SUBJECT_MAX_LENGTH
      && form.equipmentId in equipment && !equipment[form.equipmentId].isScrapped
      && (form.team.None? || form.team.value in activeTeams)
      && (form.technician.None? || form.technician.value in technicians)
      && ParsePriority(form.priority).Some?
  {
    StripShape(form.subject);
    CharFieldErrors("subject", Strip(form.subject), true, SUBJECT_MAX_LENGTH)
    + (if form.equipmentId !in equipment || equipment[form.equipmentId].isScrapped then [FieldError("equipment", INVALID_MODEL_CHOICE)] else [])
    + (if form.team.Some? && form.team.value !in activeTeams then [FieldError("maintenance_team", INVALID_MODEL_CHOICE)] else [])
    + (if form.technician.Some? && form.technician.value !in technicians then [FieldError("assigned_technician", INVALID_MODEL_CHOICE)] else [])
    + PriorityErrors(form.priority)
  }

  /** The request `PreventiveMaintenanceCreateView.form_valid` stores:
      Preventive, New, with the submitted team, technician and date and the
      stripped subject, created by the manager; the save marks it overdue at
      once when the scheduled date is already past. */
  function PreventiveRequest(form: PreventiveForm, creator: UserId, id: nat, today: Day): (r: RequestRecord)
    requires ParsePriority(form.priority).Some?
    ensures r.requestType == Preventive && r.stage == New && r.createdBy == creator
    ensures PriorityName(r.priority) == form.priority
    ensures r.equipmentId == form.equipmentId && r.team == form.team && r.technician == form.technician
    ensures r.scheduledDate == form.scheduledDate && r.subject == Strip(form.subject)
    ensures r.isOverdue <==> form.scheduledDate.Some? && form.scheduledDate.value < today
  {
    var row := RequestRecord(id, Strip(form.subject), Preventive, New, ParsePriority(form.priority).value, form.equipmentId, form.team,
      form.technician, creator, form.scheduledDate, None, None, None, None, false, None, None);
    Saved(row, today)
  }

  // ---------------------------------------------------------------------
  // UserSignupForm

  /** The data of a sign-up, as typed. */
  datatype SignupData = SignupData(
    username: string,
    email: string,
    firstName: string,
    lastName: string,
    password: string,
    passwordConfirm: string,
    requestedRole: string)

  const USERNAME_MAX_LENGTH: nat := 150
  const EMAIL_MAX_LENGTH: nat := 254
  const NAME_MAX_LENGTH: nat := 150
  const PASSWORD_MIN_LENGTH: nat := 8
  const PASSWORD_MAX_LENGTH: nat := 128

  /** The roles a sign-up may ask for: never Admin. */
  const SIGNUP_ROLES: seq<string> := [USER, TECHNICIAN, MANAGER]

  const USERNAME_TAKEN: string := "This username is already taken."
  const USERNAME_PENDING: string := "A registration request with this username is already pending."
  const USERNAME_EXISTS: string := "User registration with this Username already exists."
  const EMAIL_TAKEN: string := "This email is already registered."
  const EMAIL_PENDING: string := "A registration request with this email is already pending."
  const EMAIL_EXISTS: string := "User registration with this Email already exists."
  const PASSWORDS_DIFFER: string := "Passwords do not match."

  predicate EmailTaken(users: map<string, Account>, email: string) {
    exists u :: u in users && users[u].email == email
  }

  predicate UsernamePending(regs: map<nat, Registration>, username: string) {
    exists k :: k in regs && regs[k].username == username && regs[k].status == Pending
  }

  predicate EmailPending(regs: map<nat, Registration>, email: string) {
    exists k :: k in regs && regs[k].email == email && regs[k].status == Pending
  }

  predicate UsernameRegistered(regs: map<nat, Registration>, username: string) {
    exists k :: k in regs && regs[k].username == username
  }

  predicate EmailRegistered(regs: map<nat, Registration>, email: string) {
    exists k :: k in regs && regs[k].email == email
  }

  /** The username field on its stripped value (required, at most 150
      characters), then `clean_username`: an existing account or a pending
      registration with the name makes it unavailable. */
  function UsernameFieldErrors(username: string, users: map<string, Account>, regs: map<nat, Registration>): (errors: seq<FieldError>)
    ensures errors == [] <==>
      username != "" && |username| <= USERNAME_MAX_LENGTH && username !in users && !UsernamePending(regs, username)
    ensures forall e :: e in errors ==> e.field == "username"
  {
    var field := CharFieldErrors("username", username, true, USERNAME_MAX_LENGTH);
    if field != [] then field
    else if username in users then [FieldError("username", USERNAME_TAKEN)]
    else if UsernamePending(regs, username) then [FieldError("username", USERNAME_PENDING)]
    else []
  }

  /** The email field on its stripped value (required, at most 254
      characters), then `clean_email`. */
  function EmailFieldErrors(email: string, users: map<string, Account>, regs: map<nat, Registration>): (errors: seq<FieldError>)
    ensures errors == [] <==>
      email != "" && |email| <= EMAIL_MAX_LENGTH && !EmailTaken(users, email) && !EmailPending(regs, email)
    ensures forall e :: e in errors ==> e.field == "email"
  {
    var field := CharFieldErrors("email", email, true, EMAIL_MAX_LENGTH);
    if field != [] then field
    else if EmailTaken(users, email) then [FieldError("email", EMAIL_TAKEN)]
    else if EmailPending(regs, email) then [FieldError("email", EMAIL_PENDING)]
    else []
  }

  /** The password field on its stripped value: required and at least eight
      characters. (Its upper bound belongs to the model and is checked
      later.) */
  function PasswordErrors(password: string): (errors: seq<FieldError>)
    ensures errors == [] <==> |password| >= PASSWORD_MIN_LENGTH
  {
    if password == "" then [FieldError("password", REQUIRED)]
    else if |password| < PASSWORD_MIN_LENGTH then [FieldError("password", MinLengthMessage(PASSWORD_MIN_LENGTH, |password|))]
    else []
  }

  /** The requested role is required and must be one a sign-up may ask for;
      a choice field does not strip. */
  function RoleErrors(requestedRole: string): (errors: seq<FieldError>)
    ensures errors == [] <==> requestedRole in SIGNUP_ROLES
    ensures forall e :: e in errors ==> e.field == "requested_role"
  {
    if requestedRole == "" then [FieldError("requested_role", REQUIRED)]
    else if requestedRole in SIGNUP_ROLES then []
    else [FieldError("requested_role", InvalidChoice(requestedRole))]
  }

  /** The confirmation field is required; `clean` then attaches a mismatch
      to it when both passwords made it through their fields and differ. */
  function ConfirmErrors(password: string, passwordConfirm: string): (errors: seq<FieldError>)
    ensures errors == [] <==> passwordConfirm != "" && (|password| < PASSWORD_MIN_LENGTH || password == passwordConfirm)
  {
    if passwordConfirm == "" then [FieldError("password_confirm", REQUIRED)]
    else if PasswordErrors(password) == [] && password != passwordConfirm then [FieldError("password_confirm", PASSWORDS_DIFFER)]
    else []
  }

  /** What the model adds in `_post_clean`, after `clean`, for the fields
      that have no error yet: the password's `max_length` of 128, then the
      uniqueness of the username and of the email among all registrations. */
  function ModelErrors(username: string, email: string, password: string,
                       users: map<string, Account>, regs: map<nat, Registration>): (errors: seq<FieldError>)
    ensures errors == [] <==>
      && (PasswordErrors(password) == [] ==> |password| <= PASSWORD_MAX_LENGTH)
      && (UsernameFieldErrors(username, users, regs) == [] ==> !UsernameRegistered(regs, username))
      && (EmailFieldErrors(email, users, regs) == [] ==> !EmailRegistered(regs, email))
    ensures forall e :: e in errors ==>
      e.field == "username" || e.field == "email" || (e.field == "password" && |password| > PASSWORD_MAX_LENGTH)
  {
    (if PasswordErrors(password) == [] && |password| > PASSWORD_MAX_LENGTH
     then [FieldError("password", MaxLengthMessage(PASSWORD_MAX_LENGTH, |password|))] else [])
    + (if UsernameFieldErrors(username, users, regs) == [] && UsernameRegistered(regs, username)
       then [FieldError("username", USERNAME_EXISTS)] else [])
    + (if EmailFieldErrors(email, users, regs) == [] && EmailRegistered(regs, email)
       then [FieldError("email", EMAIL_EXISTS)] else [])
  }

  /** All errors of a sign-up, in the order the form finds them: the fields
      in the form's order (username, email, first and last name, password,
      requested role, confirmation), `clean`'s mismatch, then the model's
      checks. The text fields are stripped first. A sign-up passes exactly
      when the username and the email are non-blank, short enough and used
      by no account and no registration, the names are short enough, the
      password has 8 to 128 characters and is typed twice the same, and the
      role is one of the three a sign-up may ask for. */
  function SignupErrors(data: SignupData, users: map<string, Account>, regs: map<nat, Registration>): (errors: seq<FieldError>)
    ensures var u := Strip(data.username); var e := Strip(data.email); var p := Strip(data.password);
      errors == [] <==>
      && u != "" && |u| <= USERNAME_MAX_LENGTH && u !in users && !UsernameRegistered(regs, u)
      && e != "" && |e| <= EMAIL_MAX_LENGTH && !EmailTaken(users, e) && !EmailRegistered(regs, e)
      && |Strip(data.firstName)| <= NAME_MAX_LENGTH && |Strip(data.lastName)| <= NAME_MAX_LENGTH
      && PASSWORD_MIN_LENGTH <= |p| <= PASSWORD_MAX_LENGTH && Strip(data.passwordConfirm) == p
      && data.requestedRole in SIGNUP_ROLES
  {
    var u := Strip(data.username);
    var e := Strip(data.email);
    var p := Strip(data.password);
    UsernameFieldErrors(u, users, regs) + EmailFieldErrors(e, users, regs)
      + CharFieldErrors("first_name", Strip(data.firstName), false, NAME_MAX_LENGTH)
      + CharFieldErrors("last_name", Strip(data.lastName), false, NAME_MAX_LENGTH)
      + PasswordErrors(p) + RoleErrors(data.requestedRole)
      + ConfirmErrors(p, Strip(data.passwordConfirm))
      + ModelErrors(u, e, p, users, regs)
  }

  /** A sign-up never asks for the Admin role. */
  lemma SignupNeverRequestsAdmin(data: SignupData, users: map<string, Account>, regs: map<nat, Registration>)
    requires SignupErrors(data, users, regs) == []
    ensures data.requestedRole != ADMIN
  {
  }

  /** Surrounding whitespace does not count towards the password: one that
      is short once stripped is refused even when the padding makes it long
      enough. */
  lemma PaddedPasswordIsShort()
    ensures PasswordErrors(Strip(" abcdefg ")) == [FieldError("password", MinLengthMessage(8, 7))]
  {
    assert Strip(" abcdefg ") == "abcdefg" by {
      assert StripLeft(" abcdefg ") == "abcdefg ";
      assert StripRight("abcdefg ") == "abcdefg";
    }
  }

  predicate NotAboutPasswords(errors: seq<FieldError>) {
    forall f :: f in errors ==> f.field != "password" && f.field != "password_confirm"
  }

  /** The sign-up's errors before the confirmation field, and the model's,
      name neither password field as long as the password is acceptable. */
  lemma OtherErrorsNotAboutPasswords(data: SignupData, users: map<string, Account>, regs: map<nat, Registration>)
    requires |Strip(data.password)| <= PASSWORD_MAX_LENGTH
    ensures var u, e, p := Strip(data.username), Strip(data.email), Strip(data.password);
      && NotAboutPasswords(UsernameFieldErrors(u, users, regs) + EmailFieldErrors(e, users, regs))
      && NotAboutPasswords(CharFieldErrors("first_name", Strip(data.firstName), false, NAME_MAX_LENGTH))
      && NotAboutPasswords(CharFieldErrors("last_name", Strip(data.lastName), false, NAME_MAX_LENGTH))
      && NotAboutPasswords(RoleErrors(data.requestedRole))
      && NotAboutPasswords(ModelErrors(u, e, p, users, regs))
  {
    // The other fields' names differ from both password fields' at the first letter.
    assert "username"[0] != "password"[0] && "email"[0] != "password"[0];
    assert "first_name"[0] != "password"[0] && "last_name"[0] != "password"[0];
    assert "requested_role"[0] != "password"[0];
  }

  /** When both passwords are acceptable and differ, the one error about the
      passwords is the mismatch, on `password_confirm`. */
  lemma MismatchGoesToConfirm(data: SignupData, users: map<string, Account>, regs: map<nat, Registration>)
    requires PASSWORD_MIN_LENGTH <= |Strip(data.password)| <= PASSWORD_MAX_LENGTH
    requires Strip(data.passwordConfirm) != "" && Strip(data.password) != Strip(data.passwordConfirm)
    ensures FieldError("password_confirm", PASSWORDS_DIFFER) in SignupErrors(data, users, regs)
    ensures forall e :: e in SignupErrors(data, users, regs) && (e.field == "password" || e.field == "password_confirm") ==>
      e == FieldError("password_confirm", PASSWORDS_DIFFER)
  {
    var u, e, p := Strip(data.username), Strip(data.email), Strip(data.password);
    var names := UsernameFieldErrors(u, users, regs) + EmailFieldErrors(e, users, regs);
    var first := CharFieldErrors("first_name", Strip(data.firstName), false, NAME_MAX_LENGTH);
    var last := CharFieldErrors("last_name", Strip(data.lastName), false, NAME_MAX_LENGTH);
    var role := RoleErrors(data.requestedRole);
    var model := ModelErrors(u, e, p, users, regs);
    assert PasswordErrors(p) == [];
    var mismatch := FieldError("password_confirm", PASSWORDS_DIFFER);
    assert ConfirmErrors(p, Strip(data.passwordConfirm)) == [mismatch];
    assert SignupErrors(data, users, regs) == names + first + last + [] + role + [mismatch] + model;
    OtherErrorsNotAboutPasswords(data, users, regs);
    OnlyTheMismatch(names + first + last, role, model, mismatch);
  }

  lemma OnlyTheMismatch(front: seq<FieldError>, role: seq<FieldError>, model: seq<FieldError>, mismatch: FieldError)
    requires NotAboutPasswords(front) && NotAboutPasswords(role) && NotAboutPasswords(model)
    ensures mismatch in front + [] + role + [mismatch] + model
    ensures forall e :: e in front + [] + role + [mismatch] + model && (e.field == "password" || e.field == "password_confirm") ==>
      e == mismatch
  {
  }

  /** The model's uniqueness check comes after `clean`: a sign-up whose only
      faults are mistyped confirmation and a name already used by a rejected
      registration reports the mismatch first. */
  lemma UniquenessReportedAfterClean(regs: map<nat, Registration>, k: nat)
    requires k in regs && regs[k].username == "ada"
    requires forall j :: j in regs ==> regs[j].status == Rejected && regs[j].email != "ada@example.com"
    ensures SignupErrors(SignupData("ada", "ada@example.com", "", "", "password1", "password2", USER), map[], regs)
         == [FieldError("password_confirm", PASSWORDS_DIFFER), FieldError("username", USERNAME_EXISTS)]
  {
    var users: map<string, Account> := map[];
    assert Strip("ada") == "ada" && Strip("ada@example.com") == "ada@example.com" && Strip("") == "";
    assert Strip("password1") == "password1" && Strip("password2") == "password2";
    assert UsernameFieldErrors("ada", users, regs) == [] by {
      assert !UsernamePending(regs, "ada");
    }
    assert EmailFieldErrors("ada@example.com", users, regs) == [] by {
      assert !EmailPending(regs, "ada@example.com");
    }
    assert ModelErrors("ada", "ada@example.com", "password1", users, regs) == [FieldError("username", USERNAME_EXISTS)] by {
      assert UsernameRegistered(regs, "ada");
      assert !EmailRegistered(regs, "ada@example.com");
    }
  }

  /** `UserSignupForm.save`: the registration is stored Pending, whatever the
      data, with the stripped texts and the password as cleaned. */
  function SignupRegistration(data: SignupData, id: nat): (reg: Registration)
    ensures reg.status == Pending && reg.id == id
    ensures reg.username == Strip(data.username) && reg.email == Strip(data.email)
    ensures reg.requestedRole == data.requestedRole
    ensures reg.password == Strip(data.password)
    ensures reg.approvedBy.None? && reg.approvedAt.None?
  {
    Registration(id, Strip(data.username), Strip(data.email), Strip(data.firstName), Strip(data.lastName),
      Strip(data.password), data.requestedRole, Pending, None, None, None)
  }
}

=== FILE: handlers.dfy ===
/** The handlers that move a maintenance request through its stages:
    `start_task` and `end_task` (the technician's buttons),
    `update_request_stage` (a card dropped on the kanban board), the
    manager's update form and the technician's update form, and the two
    views that create requests. Each handler changes the loaded request
    field by field and then saves it; what each one fills in, and whether it
    keeps or overwrites a value already there, is stated by a function over
    the row, and the lemmas below compare the handlers. */
module Handlers {
  import opened Wrappers
  import opened Dates
  import opened Identity
  import opened Models
  import Mixins
  import Forms

  /** The user is the request's technician or belongs to its team: the
      access test of `start_task` and of the technician's detail view. */
  predicate CanWork(r: RequestRecord, user: UserId, members: set<TeamMember>) {
    r.technician == Some(user) || (r.team.Some? && r.team.value in TeamsOf(members, user))
  }

  // ---------------------------------------------------------------------
  // The changes each handler makes before saving

  /** `start_task`: In Progress, the start time overwritten with now, the
      acting user assigned when nobody is. */
  function StartTaskUpdate(r: RequestRecord, user: UserId, now: Seconds): RequestRecord {
    r.(stage := InProgress, startTime := Some(now),
       technician := if r.technician.None? then Some(user) else r.technician)
  }

  /** `end_task`: the end time is now, the duration is measured from the
      start (overwriting any earlier duration), Repaired, completed today. */
  function EndTaskUpdate(r: RequestRecord, now: Seconds, today: Day): RequestRecord
    requires r.startTime.Some?
  {
    r.(endTime := Some(now), duration := Some(HundredthsOfHour(now - r.startTime.value)),
       stage := Repaired, completedDate := Some(today))
  }

  /** The fill-ins of `update_request_stage`, made on the loaded request
      before it is saved. */
  method FillStageTimes(req: MaintenanceRequest, s: Stage, now: Seconds, today: Day)
    modifies req
    ensures req.equipment == old(req.equipment)
    ensures req.Record() == StageUpdate(old(req.Record()), s, now, today)
  {
    req.stage := s;
    if s == InProgress && req.startTime.None? {
      req.startTime := Some(now);
    } else if s == Repaired || s == Scrap {
      if req.endTime.None? {
        req.endTime := Some(now);
      }
      if req.startTime.Some? && !DurationSet(req.duration) {
        req.duration := Some(HundredthsOfHour(req.endTime.value - req.startTime.value));
      }
      if req.completedDate.None? {
        req.completedDate := Some(today);
      }
    }
  }

  /** `update_request_stage`: the new stage; moving to In Progress sets a
      missing start time; moving to Repaired or Scrap sets a missing end
      time, a missing (or zero) duration when the work was started, and a
      missing completion date. */
  function StageUpdate(r: RequestRecord, s: Stage, now: Seconds, today: Day): RequestRecord {
    var r1 := r.(stage := s);
    if s == InProgress && r1.startTime.None? then r1.(startTime := Some(now))
    else if s == Repaired || s == Scrap then
      var r2 := if r1.endTime.None? then r1.(endTime := Some(now)) else r1;
      var r3 := if r2.startTime.Some? && !DurationSet(r2.duration)
                then r2.(duration := Some(HundredthsOfHour(r2.endTime.value - r2.startTime.value)))
                else r2;
      if r3.completedDate.None? then r3.(completedDate := Some(today)) else r3
    else r1
  }

  /** `MaintenanceRequestUpdateView.form_valid`, after the form's technician,
      stage and priority are copied onto the instance: the same fill-ins as
      the board, in a different order. */
  function ManagerFormUpdate(r: RequestRecord, technician: Option<UserId>, s: Stage, priority: Priority, now: Seconds, today: Day): RequestRecord {
    var r1 := r.(technician := technician, stage := s, priority := priority);
    if r1.stage == Repaired || r1.stage == Scrap then
      var r2 := if r1.completedDate.None? then r1.(completedDate := Some(today)) else r1;
      var r3 := if r2.endTime.None? then r2.(endTime := Some(now)) else r2;
      if r3.startTime.Some? && !DurationSet(r3.duration)
      then r3.(duration := Some(HundredthsOfHour(r3.endTime.value - r3.startTime.value)))
      else r3
    else if r1.stage == InProgress && r1.startTime.None? then r1.(startTime := Some(now))
    else r1
  }

  /** `TechnicianRequestDetailView.form_valid`, after the form's fields are
      copied onto the instance: only Repaired gets a completion date; the
      end time is filled only when missing, and only then is the duration
      measured, over whatever the form held; the acting user becomes the
      technician when nobody is. */
  function TechnicianFormUpdate(r: RequestRecord, form: Forms.TechnicianForm, s: Stage, user: UserId, now: Seconds, today: Day): RequestRecord {
    AssignIfUnassigned(EndIfClosing(StartIfInProgress(CompleteIfRepaired(Forms.ApplyTechnicianForm(r, form, s), today), now), now), user)
  }

  /** A Repaired request without a completion date is completed today. */
  function CompleteIfRepaired(r: RequestRecord, today: Day): RequestRecord {
    if r.stage == Repaired && r.completedDate.None? then r.(completedDate := Some(today)) else r
  }

  /** A request In Progress without a start time starts now. */
  function StartIfInProgress(r: RequestRecord, now: Seconds): RequestRecord {
    if r.stage == InProgress && r.startTime.None? then r.(startTime := Some(now)) else r
  }

  /** A closed request without an end time ends now, and then its duration
      is measured when it was started. */
  function EndIfClosing(r: RequestRecord, now: Seconds): RequestRecord {
    if (r.stage == Repaired || r.stage == Scrap) && r.endTime.None? then
      if r.startTime.Some? then r.(endTime := Some(now), duration := Some(HundredthsOfHour(now - r.startTime.value)))
      else r.(endTime := Some(now))
    else r
  }

  /** A request nobody is assigned to goes to the acting user. */
  function AssignIfUnassigned(r: RequestRecord, user: UserId): RequestRecord {
    if r.technician.None? then r.(technician := Some(user)) else r
  }

  // ---------------------------------------------------------------------
  // What the handlers promise, and how they compare

  /** `start_task` always starts the clock again, from any stage, and keeps
      an assigned technician. */
  lemma StartTaskRestartsClock(r: RequestRecord, user: UserId, now: Seconds)
    ensures StartTaskUpdate(r, user, now).stage == InProgress
    ensures StartTaskUpdate(r, user, now).startTime == Some(now)
    ensures r.technician.Some? ==> StartTaskUpdate(r, user, now).technician == r.technician
    ensures r.technician.None? ==> StartTaskUpdate(r, user, now).technician == Some(user)
    ensures StartTaskUpdate(r, user, now).endTime == r.endTime && StartTaskUpdate(r, user, now).duration == r.duration
  {
  }

  /** Closing a request through the board records the work: the end time and
      the completion date are set (kept if already there), the start time is
      never touched, a duration already recorded is kept, and a duration
      that is missing or zero is measured between the start and the end. */
  lemma BoardClosingRecordsWork(r: RequestRecord, s: Stage, now: Seconds, today: Day)
    requires IsClosed(s)
    ensures var c := StageUpdate(r, s, now, today);
      && c.stage == s
      && c.endTime == (if r.endTime.Some? then r.endTime else Some(now))
      && c.completedDate == (if r.completedDate.Some? then r.completedDate else Some(today))
      && c.startTime == r.startTime
      && (DurationSet(r.duration) || r.startTime.None? ==> c.duration == r.duration)
      && (!DurationSet(r.duration) && r.startTime.Some? ==>
            c.duration == Some(HundredthsOfHour(c.endTime.value - r.startTime.value)))
  {
  }

  /** Dropping a card twice on the same column is the same as dropping it
      once, whenever the second drop happens: nothing set by the first drop
      is changed by the second. */
  lemma {:induction false} StageUpdateIdempotent(r: RequestRecord, s: Stage, now1: Seconds, today1: Day, now2: Seconds, today2: Day)
    ensures StageUpdate(StageUpdate(r, s, now1, today1), s, now2, today2) == StageUpdate(r, s, now1, today1)
  {
    var once := StageUpdate(r, s, now1, today1);
    if IsClosed(s) {
      BoardClosingRecordsWork(r, s, now1, today1);
      BoardClosingRecordsWork(once, s, now2, today2);
      if once.startTime.Some? && !DurationSet(once.duration) {
        assert once.duration == Some(HundredthsOfHour(once.endTime.value - once.startTime.value));
      }
    }
  }

  /** The manager's form is the board with the technician and priority of
      the form: both fill the same fields under the same conditions. */
  lemma ManagerFormIsBoardDrop(r: RequestRecord, technician: Option<UserId>, s: Stage, priority: Priority, now: Seconds, today: Day)
    ensures ManagerFormUpdate(r, technician, s, priority, now, today)
         == StageUpdate(r.(technician := technician, priority := priority), s, now, today)
  {
  }

  /** On a started, unfinished request assigned to the user, the four ways of
      finishing the work agree: the End Task button, a drop on Repaired, the
      manager's form and the technician's form (leaving duration, notes and
      summary as they are, and those texts as a form stores them, so neither
      of them unset) write the same row. */
  lemma FinishingStartedWorkAgrees(r: RequestRecord, user: UserId, now: Seconds, today: Day)
    requires r.startTime.Some? && r.endTime.None? && r.completedDate.None? && !DurationSet(r.duration)
    requires r.technician == Some(user)
    requires r.technicianNotes == Forms.CleanText(r.technicianNotes) && r.resolutionSummary == Forms.CleanText(r.resolutionSummary)
    ensures EndTaskUpdate(r, now, today) == StageUpdate(r, Repaired, now, today)
    ensures EndTaskUpdate(r, now, today) == ManagerFormUpdate(r, r.technician, Repaired, r.priority, now, today)
    ensures EndTaskUpdate(r, now, today)
         == TechnicianFormUpdate(r, Forms.TechnicianForm("Repaired", r.duration, r.technicianNotes, r.resolutionSummary), Repaired, user, now, today)
  {
  }

  /** The technician's form never leaves the notes unset: finishing a
      request whose notes were never written stores "" through the form,
      where the End Task button keeps them unset. */
  lemma FormStoresEmptyNotes(r: RequestRecord, user: UserId, now: Seconds, today: Day)
    requires r.startTime.Some? && r.technicianNotes.None?
    ensures EndTaskUpdate(r, now, today).technicianNotes.None?
    ensures TechnicianFormUpdate(r, Forms.TechnicianForm("Repaired", r.duration, None, r.resolutionSummary), Repaired, user, now, today).technicianNotes
         == Some("")
  {
    TechnicianFormUpdateKeepsNotes(r, Forms.TechnicianForm("Repaired", r.duration, None, r.resolutionSummary), Repaired, user, now, today);
    assert Forms.Strip("") == "";
  }

  /** Where the handlers differ. Scrapping through the technician's form
      leaves no completion date, where the board sets one; and the
      technician's form measures the duration whenever it fills the end
      time, over a duration typed into the form, where the board keeps a
      recorded one. */
  lemma TechnicianFormDiffersFromBoard(r: RequestRecord, form: Forms.TechnicianForm, user: UserId, now: Seconds, today: Day)
    requires r.completedDate.None? && r.endTime.None? && r.startTime.Some?
    requires DurationSet(form.duration)
    ensures TechnicianFormUpdate(r, form, Scrap, user, now, today).completedDate.None?
    ensures StageUpdate(r, Scrap, now, today).completedDate == Some(today)
    ensures TechnicianFormUpdate(r, form, Repaired, user, now, today).duration == Some(HundredthsOfHour(now - r.startTime.value))
    ensures StageUpdate(r.(duration := form.duration), Repaired, now, today).duration == form.duration
  {
  }

  /** Whatever the handler, a request saved in a closed stage is not
      overdue. */
  lemma ClosedByAnyHandlerIsNotOverdue(r: RequestRecord, s: Stage, now: Seconds, today: Day)
    requires r.startTime.Some? && IsClosed(s)
    ensures !Saved(EndTaskUpdate(r, now, today), today).isOverdue
    ensures !Saved(StageUpdate(r, s, now, today), today).isOverdue
  {
    ClosedRequestsAreNotOverdue(EndTaskUpdate(r, now, today), today);
    ClosedRequestsAreNotOverdue(StageUpdate(r, s, now, today), today);
  }

  // ---------------------------------------------------------------------
  // The JSON endpoints

  const AUTH_REQUIRED: string := "Authentication required"

  /** `start_task`. */
  method StartTask(who: Principal, req: MaintenanceRequest?, members: set<TeamMember>, now: Seconds, today: Day) returns (reply: Reply)
    modifies if req == null then {} else {req, req.equipment}
    ensures who.Anonymous? ==> reply == JsonError(401, AUTH_REQUIRED)
    ensures who.SignedIn? && req == null ==> reply == NotFound
    ensures who.SignedIn? && req != null && !CanWork(old(req.Record()), who.id, members) ==> reply == JsonError(403, "Permission denied")
    ensures reply == JsonSuccess <==> who.SignedIn? && req != null && CanWork(old(req.Record()), who.id, members)
    ensures reply == JsonSuccess ==>
      && req.equipment == old(req.equipment)
      && req.Record() == Saved(StartTaskUpdate(old(req.Record()), who.id, now), today)
      && req.equipment.Record() == ScrapCascade(StartTaskUpdate(old(req.Record()), who.id, now), old(req.equipment.Record()), today)
    ensures reply != JsonSuccess && req != null ==> unchanged(req, old(req.equipment))
  {
    if who.Anonymous? {
      return JsonError(401, AUTH_REQUIRED);
    }
    if req == null {
      return NotFound;
    }
    if !CanWork(req.Record(), who.id, members) {
      return JsonError(403, "Permission denied");
    }
    ghost var before := req.Record();
    req.stage := InProgress;
    req.startTime := Some(now);
    if req.technician.None? {
      req.technician := Some(who.id);
    }
    assert req.Record() == StartTaskUpdate(before, who.id, now);
    req.Save(today);
    reply := JsonSuccess;
  }

  /** `end_task`. */
  method EndTask(who: Principal, req: MaintenanceRequest?, now: Seconds, today: Day) returns (reply: Reply)
    modifies if req == null then {} else {req, req.equipment}
    ensures who.Anonymous? ==> reply == JsonError(401, AUTH_REQUIRED)
    ensures who.SignedIn? && req == null ==> reply == NotFound
    ensures who.SignedIn? && req != null && old(req.technician) != Some(who.id) ==>
      reply == JsonError(403, "Only assigned technician can end this task")
    ensures who.SignedIn? && req != null && old(req.technician) == Some(who.id) && old(req.startTime).None? ==>
      reply == JsonError(400, "Task must be started before it can be ended")
    ensures reply == JsonSuccess <==> who.SignedIn? && req != null && old(req.technician) == Some(who.id) && old(req.startTime).Some?
    ensures reply == JsonSuccess ==>
      && req.equipment == old(req.equipment)
      && req.Record() == Saved(EndTaskUpdate(old(req.Record()), now, today), today)
      && req.equipment.Record() == ScrapCascade(EndTaskUpdate(old(req.Record()), now, today), old(req.equipment.Record()), today)
    ensures reply != JsonSuccess && req != null ==> unchanged(req, old(req.equipment))
  {
    if who.Anonymous? {
      return JsonError(401, AUTH_REQUIRED);
    }
    if req == null {
      return NotFound;
    }
    if req.technician != Some(who.id) {
      return JsonError(403, "Only assigned technician can end this task");
    }
    if req.startTime.None? {
      return JsonError(400, "Task must be started before it can be ended");
    }
    ghost var before := req.Record();
    req.endTime := Some(now);
    req.duration := Some(HundredthsOfHour(now - req.startTime.value));
    req.stage := Repaired;
    req.completedDate := Some(today);
    assert req.Record() == EndTaskUpdate(before, now, today);
    req.Save(today);
    reply := JsonSuccess;
  }

  /** `update_request_stage`: any signed-in user may move any request to
      any of the four stages; `stage` is the posted text, None when absent. */
  method UpdateRequestStage(who: Principal, req: MaintenanceRequest?, stage: Option<string>, now: Seconds, today: Day) returns (reply: Reply)
    modifies if req == null then {} else {req, req.equipment}
    ensures who.Anonymous? ==> reply == JsonError(401, AUTH_REQUIRED)
    ensures who.SignedIn? && req == null ==> reply == NotFound
    ensures who.SignedIn? && req != null && (stage.None? || ParseStage(stage.value).None?) ==> reply == JsonError(400, "Invalid stage")
    ensures reply == JsonSuccess <==> who.SignedIn? && req != null && stage.Some? && ParseStage(stage.value).Some?
    ensures reply == JsonSuccess ==>
      && req.equipment == old(req.equipment)
      && req.Record() == Saved(StageUpdate(old(req.Record()), ParseStage(stage.value).value, now, today), today)
      && req.equipment.Record() == ScrapCascade(StageUpdate(old(req.Record()), ParseStage(stage.value).value, now, today), old(req.equipment.Record()), today)
    ensures reply != JsonSuccess && req != null ==> unchanged(req, old(req.equipment))
  {
    if who.Anonymous? {
      return JsonError(401, AUTH_REQUIRED);
    }
    if req == null {
      return NotFound;
    }
    if stage.None? || ParseStage(stage.value).None? {
      return JsonError(400, "Invalid stage");
    }
    var s := ParseStage(stage.value).value;
    FillStageTimes(req, s, now, today);
    req.Save(today);
    reply := JsonSuccess;
  }

  // ---------------------------------------------------------------------
  // The update views

  /** The answer of a role guard that did not let the visitor through. */
  function GuardReply<R>(g: Gate<R>): Reply
    requires !g.Admitted?
  {
    if g.ToLogin? then LoginRedirect else PermissionDenied(g.message)
  }

  /** The manager form's values copied onto the loaded request, and the
      fill-ins of `MaintenanceRequestUpdateView.form_valid`. */
  method FillManagerForm(req: MaintenanceRequest, technician: Option<UserId>, s: Stage, priority: Priority, now: Seconds, today: Day)
    modifies req
    ensures req.equipment == old(req.equipment)
    ensures req.Record() == ManagerFormUpdate(old(req.Record()), technician, s, priority, now, today)
  {
    ghost var r1 := old(req.Record()).(technician := technician, stage := s, priority := priority);
    req.technician := technician;
    req.stage := s;
    req.priority := priority;
    assert req.Record() == r1;
    if req.stage == Repaired || req.stage == Scrap {
      if req.completedDate.None? {
        req.completedDate := Some(today);
      }
      ghost var r2 := if r1.completedDate.None? then r1.(completedDate := Some(today)) else r1;
      assert req.Record() == r2;
      if req.endTime.None? {
        req.endTime := Some(now);
      }
      assert req.Record() == if r2.endTime.None? then r2.(endTime := Some(now)) else r2;
      if req.startTime.Some? && !DurationSet(req.duration) {
        req.duration := Some(HundredthsOfHour(req.endTime.value - req.startTime.value));
      }
    } else if req.stage == InProgress && req.startTime.None? {
      req.startTime := Some(now);
    }
  }

  /** A POST to `MaintenanceRequestUpdateView`: administrators and managers
      only; a missing request is a 404; an invalid form is shown again;
      otherwise the form's values and the fill-ins are saved. */
  method ManagerUpdate(who: Principal, req: MaintenanceRequest?, form: Forms.ManagerForm, technicians: set<UserId>, now: Seconds, today: Day) returns (reply: Reply)
    modifies if req == null then {} else {req, req.equipment}
    ensures var g := Mixins.Dispatch(Mixins.AdminOrManagerRequiredMixin, who, (p: Principal) => true);
      && (!g.Admitted? ==> reply == GuardReply(g))
      && (g.Admitted? && req == null ==> reply == NotFound)
      && (g.Admitted? && req != null && Forms.ManagerFormErrors(form, technicians) != [] ==>
            reply == FormErrors(Forms.ManagerFormErrors(form, technicians)))
      && (reply == Redirected <==> g.Admitted? && req != null && Forms.ManagerFormErrors(form, technicians) == [])
    ensures reply == Redirected ==>
      var updated := ManagerFormUpdate(old(req.Record()), form.technician, ParseStage(form.stage).value, ParsePriority(form.priority).value, now, today);
      && req.equipment == old(req.equipment)
      && req.Record() == Saved(updated, today)
      && req.equipment.Record() == ScrapCascade(updated, old(req.equipment.Record()), today)
    ensures reply != Redirected && req != null ==> unchanged(req, old(req.equipment))
  {
    var g := Mixins.Dispatch(Mixins.AdminOrManagerRequiredMixin, who, (p: Principal) => true);
    if !g.Admitted? {
      return GuardReply(g);
    }
    if req == null {
      return NotFound;
    }
    var errors := Forms.ManagerFormErrors(form, technicians);
    if errors != [] {
      return FormErrors(errors);
    }
    FillManagerForm(req, form.technician, ParseStage(form.stage).value, ParsePriority(form.priority).value, now, today);
    req.Save(today);
    reply := Redirected;
  }

  /** Whether a visit to the technician's detail view gets through to the
      form, or the answer it gets instead. */
  datatype Access = Granted | Denied(reply: Reply)

  const NO_ACCESS: string := "You don't have access to this maintenance request."

  /** `TechnicianRequestDetailView.dispatch` as written: the request is
      looked up among those the user may work on before the role mixin runs.
      For an anonymous visitor that lookup filters by the anonymous user and
      fails with an error; a request the user may not work on is not found,
      so the explicit access refusal after it can never be reached. */
  function DetailAccessAsWritten(who: Principal, row: Option<RequestRecord>, members: set<TeamMember>): Access {
    match who
    case Anonymous => Denied(ServerError)
    case SignedIn(id, _) =>
      if row.None? || !CanWork(row.value, id, members) then Denied(NotFound)
      else if !CanWork(row.value, id, members) then Denied(PermissionDenied(NO_ACCESS))
      else
        var g := Mixins.Dispatch(Mixins.TechnicianRequiredMixin, who, (p: Principal) => true);
        if g.Admitted? then Granted else Denied(GuardReply(g))
  }

  /** The detail view with the role mixin first, as for every other
      technician view: anonymous visitors are sent to the login page, users
      who are not technicians are refused, and a technician reaches only the
      requests they may work on. */
  function DetailAccess(who: Principal, row: Option<RequestRecord>, members: set<TeamMember>): (a: Access)
    ensures who.Anonymous? ==> a == Denied(LoginRedirect)
    ensures a == Granted <==> RoleOf(who) == Some(TECHNICIAN) && row.Some? && CanWork(row.value, who.id, members)
    ensures RoleOf(who).Some? && RoleOf(who).value != TECHNICIAN ==> a == Denied(PermissionDenied(Mixins.DenialMessage(Mixins.TechnicianRequiredMixin)))
    ensures RoleOf(who) == Some(TECHNICIAN) && (row.None? || !CanWork(row.value, who.id, members)) ==> a == Denied(NotFound)
  {
    var g := Mixins.Dispatch(Mixins.TechnicianRequiredMixin, who, (p: Principal) => true);
    if !g.Admitted? then Denied(GuardReply(g))
    else if row.None? || !CanWork(row.value, who.id, members) then Denied(NotFound)
    else Granted
  }

  /** As written, an anonymous visit to the detail view ends in a server
      error instead of the login page. */
  lemma AnonymousDetailVisitFails(row: Option<RequestRecord>, members: set<TeamMember>)
    ensures DetailAccessAsWritten(Anonymous, row, members) == Denied(ServerError)
    ensures DetailAccess(Anonymous, row, members) == Denied(LoginRedirect)
  {
  }

  /** As written, the view's own refusal message is never shown, and a
      signed-in user who is not a technician is told the request does not
      exist rather than refused, unless they may work on it. */
  lemma DetailRefusalUnreachable(who: Principal, row: Option<RequestRecord>, members: set<TeamMember>)
    ensures DetailAccessAsWritten(who, row, members) != Denied(PermissionDenied(NO_ACCESS))
    ensures who.SignedIn? && (row.None? || !CanWork(row.value, who.id, members)) ==> DetailAccessAsWritten(who, row, members) == Denied(NotFound)
  {
  }

  /** For technicians the correction changes nothing, and nobody is granted
      access by one version and refused by the other. */
  lemma DetailAccessFixKeepsTechnicians(who: Principal, row: Option<RequestRecord>, members: set<TeamMember>)
    ensures RoleOf(who) == Some(TECHNICIAN) ==> DetailAccessAsWritten(who, row, members) == DetailAccess(who, row, members)
    ensures DetailAccessAsWritten(who, row, members) == Granted <==> DetailAccess(who, row, members) == Granted
  {
  }

  /** The technician form's cleaned values copied onto the loaded request. */
  method CopyTechnicianForm(req: MaintenanceRequest, form: Forms.TechnicianForm, s: Stage)
    modifies req
    ensures req.equipment == old(req.equipment)
    ensures req.Record() == Forms.ApplyTechnicianForm(old(req.Record()), form, s)
  {
    req.stage, req.duration := s, form.duration;
    req.technicianNotes := Forms.CleanText(form.technicianNotes);
    req.resolutionSummary := Forms.CleanText(form.resolutionSummary);
  }

  /** The technician form's values copied onto the loaded request, and the
      fill-ins of `TechnicianRequestDetailView.form_valid`. */
  method FillTechnicianForm(req: MaintenanceRequest, form: Forms.TechnicianForm, s: Stage, user: UserId, now: Seconds, today: Day)
    modifies req
    ensures req.equipment == old(req.equipment)
    ensures req.Record() == TechnicianFormUpdate(old(req.Record()), form, s, user, now, today)
  {
    CopyTechnicianForm(req, form, s);
    ghost var r1 := req.Record();
    if req.stage == Repaired && req.completedDate.None? {
      req.completedDate := Some(today);
    }
    ghost var r2 := CompleteIfRepaired(r1, today);
    assert req.Record() == r2;
    if req.stage == InProgress && req.startTime.None? {
      req.startTime := Some(now);
    }
    ghost var r3 := StartIfInProgress(r2, now);
    assert req.Record() == r3;
    if (req.stage == Repaired || req.stage == Scrap) && req.endTime.None? {
      req.endTime := Some(now);
      if req.startTime.Some? {
        req.duration := Some(HundredthsOfHour(now - req.startTime.value));
      }
    }
    ghost var r4 := EndIfClosing(r3, now);
    assert req.Record() == r4;
    if req.technician.None? {
      req.technician := Some(user);
    }
  }

  /** A POST to `TechnicianRequestDetailView` (with the role check first):
      the form is validated against the request's current stage, and a
      valid form is copied onto the request, the fill-ins made and the
      request saved. */
  method TechnicianUpdate(who: Principal, req: MaintenanceRequest?, form: Forms.TechnicianForm, members: set<TeamMember>, now: Seconds, today: Day) returns (reply: Reply)
    modifies if req == null then {} else {req, req.equipment}
    ensures var a := DetailAccess(who, if req == null then None else Some(old(req.Record())), members);
      && (a.Denied? ==> reply == a.reply)
      && (a == Granted ==> reply == (if Forms.TechnicianFormErrors(old(req.Record()), form) == [] then Redirected
                                    else FormErrors(Forms.TechnicianFormErrors(old(req.Record()), form))))
    ensures reply == Redirected ==>
      var updated := TechnicianFormUpdate(old(req.Record()), form, ParseStage(form.stage).value, who.id, now, today);
      && who.SignedIn?
      && req.equipment == old(req.equipment)
      && req.Record() == Saved(updated, today)
      && req.equipment.Record() == ScrapCascade(updated, old(req.equipment.Record()), today)
    ensures reply != Redirected && req != null ==> unchanged(req, old(req.equipment))
  {
    var a := DetailAccess(who, if req == null then None else Some(req.Record()), members);
    if a.Denied? {
      return a.reply;
    }
    var errors := Forms.TechnicianFormErrors(req.Record(), form);
    if errors != [] {
      return FormErrors(errors);
    }
    FillTechnicianForm(req, form, ParseStage(form.stage).value, who.id, now, today);
    req.Save(today);
    reply := Redirected;
  }

  /** Through the technician's view a technician can move a request only
      forwards, and can close it as Repaired only with a resolution
      summary that is not blank. */
  lemma TechnicianViewMovesForward(r: RequestRecord, form: Forms.TechnicianForm, user: UserId, now: Seconds, today: Day)
    requires Forms.TechnicianFormErrors(r, form) == []
    ensures var s := ParseStage(form.stage).value;
      && Forms.Progress(r.stage) <= Forms.Progress(TechnicianFormUpdate(r, form, s, user, now, today).stage)
      && (IsClosed(r.stage) ==> TechnicianFormUpdate(r, form, s, user, now, today).stage == r.stage)
      && (TechnicianFormUpdate(r, form, s, user, now, today).stage == Repaired ==>
            && TechnicianFormUpdate(r, form, s, user, now, today).resolutionSummary.Some?
            && !Forms.Blank(TechnicianFormUpdate(r, form, s, user, now, today).resolutionSummary.value))
  {
    var s := ParseStage(form.stage).value;
    Forms.TechnicianChoicesMoveForward(r.stage, s);
    Models.ParseStageName(s);
    Forms.CleanTextMeaning(form.resolutionSummary);
    TechnicianFormUpdateKeeps(r, form, s, user, now, today);
  }

  /** The fill-ins after the technician form change neither the stage nor
      the summary the form gave. */
  lemma TechnicianFormUpdateKeeps(r: RequestRecord, form: Forms.TechnicianForm, s: Stage, user: UserId, now: Seconds, today: Day)
    ensures TechnicianFormUpdate(r, form, s, user, now, today).stage == s
    ensures TechnicianFormUpdate(r, form, s, user, now, today).resolutionSummary == Forms.CleanText(form.resolutionSummary)
  {
  }

  /** Nor do they change the notes the form gave. */
  lemma TechnicianFormUpdateKeepsNotes(r: RequestRecord, form: Forms.TechnicianForm, s: Stage, user: UserId, now: Seconds, today: Day)
    ensures TechnicianFormUpdate(r, form, s, user, now, today).technicianNotes == Forms.CleanText(form.technicianNotes)
  {
  }

  // ---------------------------------------------------------------------
  // The views that create requests

  /** The rows of loaded equipment instances. */
  function EquipmentRows(equipment: map<nat, Equipment>): map<nat, EquipmentRecord>
    reads equipment.Values
  {
    map k | k in equipment :: equipment[k].Record()
  }

  /** A POST to `UserCreateRequestView`: regular users only; a valid report
      becomes a new breakdown request for the equipment's team. */
  method CreateBreakdownRequest(who: Principal, form: Forms.BreakdownForm, equipment: map<nat, Equipment>, id: nat, today: Day)
    returns (reply: Reply, created: MaintenanceRequest?)
    requires forall k :: k in equipment ==> equipment[k].id == k
    modifies equipment.Values
    ensures forall k :: k in equipment ==> equipment[k].Record() == old(equipment[k].Record())
    ensures var g := Mixins.Dispatch(Mixins.UserRequiredMixin, who, (p: Principal) => true);
      && (!g.Admitted? ==> reply == GuardReply(g))
      && (reply == Redirected <==> g.Admitted? && Forms.BreakdownFormErrors(form, EquipmentRows(equipment)) == [])
      && (g.Admitted? && Forms.BreakdownFormErrors(form, EquipmentRows(equipment)) != [] ==>
            reply == FormErrors(Forms.BreakdownFormErrors(form, EquipmentRows(equipment))))
    ensures reply == Redirected <==> created != null
    ensures created != null ==>
      && who.SignedIn? && fresh(created)
      && form.equipmentId in equipment && created.equipment == equipment[form.equipmentId]
      && created.Record() == Forms.BreakdownRequest(form, equipment[form.equipmentId].Record(), who.id, id, today)
  {
    created := null;
    var g := Mixins.Dispatch(Mixins.UserRequiredMixin, who, (p: Principal) => true);
    if !g.Admitted? {
      return GuardReply(g), null;
    }
    var errors := Forms.BreakdownFormErrors(form, EquipmentRows(equipment));
    if errors != [] {
      return FormErrors(errors), null;
    }
    var e := equipment[form.equipmentId];
    var row := RequestRecord(id, Forms.Strip(form.subject), Corrective, New, ParsePriority(form.priority).value, form.equipmentId, Some(e.team),
      None, who.id, None, None, None, None, None, false, None, None);
    created := new MaintenanceRequest(row, e);
    created.Save(today);
    reply := Redirected;
  }

  /** A POST to `PreventiveMaintenanceCreateView`: administrators and
      managers only; a valid form becomes a new preventive request. */
  method CreatePreventiveRequest(who: Principal, form: Forms.PreventiveForm, equipment: map<nat, Equipment>,
                                 activeTeams: set<TeamId>, technicians: set<UserId>, id: nat, today: Day)
    returns (reply: Reply, created: MaintenanceRequest?)
    requires forall k :: k in equipment ==> equipment[k].id == k
    modifies equipment.Values
    ensures forall k :: k in equipment ==> equipment[k].Record() == old(equipment[k].Record())
    ensures var g := Mixins.Dispatch(Mixins.AdminOrManagerRequiredMixin, who, (p: Principal) => true);
      var errors := Forms.PreventiveFormErrors(form, EquipmentRows(equipment), activeTeams, technicians);
      && (!g.Admitted? ==> reply == GuardReply(g))
      && (reply == Redirected <==> g.Admitted? && errors == [])
      && (g.Admitted? && errors != [] ==> reply == FormErrors(errors))
    ensures reply == Redirected <==> created != null
    ensures created != null ==>
      && who.SignedIn? && fresh(created)
      && form.equipmentId in equipment && created.equipment == equipment[form.equipmentId]
      && created.Record() == Forms.PreventiveRequest(form, who.id, id, today)
  {
    created := null;
    var g := Mixins.Dispatch(Mixins.AdminOrManagerRequiredMixin, who, (p: Principal) => true);
    if !g.Admitted? {
      return GuardReply(g), null;
    }
    var errors := Forms.PreventiveFormErrors(form, EquipmentRows(equipment), activeTeams, technicians);
    if errors != [] {
      return FormErrors(errors), null;
    }
    var row := RequestRecord(id, Forms.Strip(form.subject), Preventive, New, ParsePriority(form.priority).value, form.equipmentId, form.team,
      form.technician, who.id, form.scheduledDate, None, None, None, None, false, None, None);
    created := new MaintenanceRequest(row, equipment[form.equipmentId]);
    created.Save(today);
    reply := Redirected;
  }
}

=== FILE: identity.dfy ===
/** Who is making a request, and the shapes of the answers the views give.
    A user's role lives in a separate profile row that may be missing; the
    role is the profile's `role` text, one of the four names below when the
    profile was created by the application. */
module Identity {
  import opened Wrappers

  type UserId = nat
  type TeamId = nat

  const ADMIN: string := "Admin"
  const MANAGER: string := "Manager"
  const TECHNICIAN: string := "Technician"
  const USER: string := "User"

  const PROFILE_MISSING: string := "User profile not found. Please contact administrator."

  datatype Profile = Profile(role: string)

  /** `request.user`: the anonymous user, or a signed-in account whose
      profile may be missing. */
  datatype Principal = Anonymous | SignedIn(id: UserId, profile: Option<Profile>)

  /** `get_user_role(user)` (and the `get_role` method patched onto `User`):
      the profile's role, or None when the user has no profile. */
  function RoleOf(who: Principal): (r: Option<string>)
    ensures r.Some? <==> who.SignedIn? && who.profile.Some?
    ensures r.Some? ==> r.value == who.profile.value.role
  {
    match who
    case Anonymous => None
    case SignedIn(_, profile) =>
      match profile
      case None => None
      case Some(p) => Some(p.role)
  }

  /** A `TeamMember` row: `user` belongs to `team`. */
  datatype TeamMember = TeamMember(team: TeamId, user: UserId)

  /** `MaintenanceTeam.objects.filter(members__user=user)`: the teams a user
      belongs to. */
  function TeamsOf(members: set<TeamMember>, user: UserId): (teams: set<TeamId>)
    ensures forall t :: t in teams <==> TeamMember(t, user) in members
  {
    set m | m in members && m.user == user :: m.team
  }

  /** The outcome of a role guard placed in front of a view: send the
      visitor to the login page, refuse with `PermissionDenied(message)`, or
      run the view and answer with what it returns. */
  datatype Gate<+R> = ToLogin | Refused(message: string) | Admitted(response: R)

  /** A validation error attached to one form field. */
  datatype FieldError = FieldError(field: string, message: string)

  function DigitChar(d: nat): char
    requires d < 10
  {
    "0123456789"[d]
  }

  /** The decimal text of a count, as `%d` writes it into a message. */
  function NatToString(n: nat): (text: string)
    ensures |text| > 0
    decreases n
  {
    if n < 10 then [DigitChar(n)] else NatToString(n / 10) + [DigitChar(n % 10)]
  }

  /** What a view answers. */
  datatype Reply =
    | JsonSuccess                              // `JsonResponse({'success': True, ...})`
    | JsonError(status: int, error: string)    // `JsonResponse({'error': ...}, status=...)`
    | NotFound                                 // `Http404` from `get_object_or_404` / `get_object`
    | LoginRedirect                            // redirect to the login page
    | PermissionDenied(message: string)        // `raise PermissionDenied(...)`: a 403 page
    | FormErrors(errors: seq<FieldError>)      // the form is shown again with its errors
    | Redirected                               // `form_valid` saved and redirected to the success URL
    | ServerError                              // an uncaught exception: a 500 page
}

=== FILE: mixins.dfy ===
/** The five role mixins of the class-based views. Each `dispatch` is a guard
    in front of the view: it changes nothing, and the view's own `dispatch`
    runs only when the guard lets the user through. */
module Mixins {
  import opened Wrappers
  import opened Identity
  import Decorators

  datatype Mixin =
    | ManagerRequiredMixin
    | AdminRequiredMixin
    | TechnicianRequiredMixin
    | UserRequiredMixin
    | AdminOrManagerRequiredMixin

  /** The roles a mixin lets through. `ManagerRequiredMixin` admits managers
      only, although its message mentions administrators. */
  function AdmittedRoles(m: Mixin): set<string> {
    match m
    case ManagerRequiredMixin => {MANAGER}
    case AdminRequiredMixin => {ADMIN}
    case TechnicianRequiredMixin => {TECHNICIAN}
    case UserRequiredMixin => {USER}
    case AdminOrManagerRequiredMixin => {ADMIN, MANAGER}
  }

  function DenialMessage(m: Mixin): string {
    match m
    case ManagerRequiredMixin => "Only managers or admin can access this page."
    case AdminRequiredMixin => "Only administrators can access this page."
    case TechnicianRequiredMixin => "Only technicians can access this page."
    case UserRequiredMixin => "Only regular users can access this page."
    case AdminOrManagerRequiredMixin => "Only administrators and managers can access this page."
  }

  /** `dispatch`: an anonymous visitor goes to `handle_no_permission` (the
      login page) before any role is looked at; a user without a profile is
      refused with the profile message; a user whose role the mixin does not
      admit is refused with the mixin's message; otherwise the rest of the
      view runs. */
  function Dispatch<R>(m: Mixin, who: Principal, view: Principal -> R): (g: Gate<R>)
    ensures g.ToLogin? <==> who.Anonymous?
    ensures who.SignedIn? && who.profile.None? ==> g == Refused(PROFILE_MISSING)
    ensures g.Admitted? <==> RoleOf(who).Some? && RoleOf(who).value in AdmittedRoles(m)
    ensures g.Admitted? ==> g.response == view(who)
    ensures g.Refused? && RoleOf(who).Some? ==> g.message == DenialMessage(m)
  {
    match who
    case Anonymous => ToLogin
    case SignedIn(_, profile) =>
      if profile.None? then Refused(PROFILE_MISSING)
      else if profile.value.role !in AdmittedRoles(m) then Refused(DenialMessage(m))
      else Admitted(view(who))
  }

  /** The decorator that guards function views with the same roles. */
  function Counterpart(m: Mixin): Decorators.Decorator {
    match m
    case ManagerRequiredMixin => Decorators.ManagerRequired
    case AdminRequiredMixin => Decorators.AdminRequired
    case TechnicianRequiredMixin => Decorators.TechnicianRequired
    case UserRequiredMixin => Decorators.UserRequired
    case AdminOrManagerRequiredMixin => Decorators.AdminOrManagerRequired
  }

  /** The class-view mixins and the function-view decorators make the same
      decision for every visitor: both send anonymous visitors to the login
      page, both refuse the same users, both admit the same users. Only the
      refusal messages differ. */
  lemma MixinsAgreeWithDecorators<Req, R>(m: Mixin, who: Principal, view: (Principal, Req) -> R, req: Req)
    ensures var byMixin := Dispatch(m, who, (p: Principal) => view(p, req));
      var byDecorator := Decorators.Decorate(Counterpart(m), view, who, req);
      && byMixin.ToLogin? == byDecorator.ToLogin?
      && byMixin.Refused? == byDecorator.Refused?
      && byMixin.Admitted? == byDecorator.Admitted?
      && (byMixin.Admitted? ==> byMixin.response == byDecorator.response)
      && (who.SignedIn? && who.profile.None? ==> byMixin == byDecorator)
  {
    var allowed := Decorators.AllowedRoles(Counterpart(m));
    assert forall r :: r in allowed <==> r in AdmittedRoles(m);
  }

  /** An administrator is refused by `ManagerRequiredMixin` with the message
      "Only managers or admin can access this page.". */
  lemma ManagerMixinRefusesAdmin<R>(id: UserId, view: Principal -> R)
    ensures Dispatch(ManagerRequiredMixin, SignedIn(id, Some(Profile(ADMIN))), view)
         == Refused("Only managers or admin can access this page.")
  {
  }
}

=== FILE: models.dfy ===
/** The maintenance models: equipment, maintenance requests and what saving
    a request does (the overdue flag and the scrap cascade onto the
    equipment), and the next preventive-maintenance date of a piece of
    equipment. Rows are plain values (`EquipmentRecord`, `RequestRecord`);
    a loaded model instance whose fields the views assign is an object
    (`Equipment`, `MaintenanceRequest`) whose `Record()` is the row it would
    write. */
module Models {
  import opened Wrappers
  import opened Dates
  import opened Identity

  datatype RequestType = Corrective | Preventive

  datatype Stage = New | InProgress | Repaired | Scrap

  datatype Priority = Low | Medium | High | Critical

  /** The text stored for a stage (`STAGE_CHOICES`). */
  function StageName(s: Stage): string {
    match s
    case New => "New"
    case InProgress => "In Progress"
    case Repaired => "Repaired"
    case Scrap => "Scrap"
  }

  /** `value in dict(STAGE_CHOICES)`: the stage a submitted text names, if any. */
  function ParseStage(text: string): (s: Option<Stage>)
    ensures s.Some? ==> StageName(s.value) == text
  {
    if text == "New" then Some(New)
    else if text == "In Progress" then Some(InProgress)
    else if text == "Repaired" then Some(Repaired)
    else if text == "Scrap" then Some(Scrap)
    else None
  }

  /** Every stage's text is accepted and names that stage again, so the four
      texts are distinct. */
  lemma ParseStageName(s: Stage)
    ensures ParseStage(StageName(s)) == Some(s)
  {
  }

  function PriorityName(p: Priority): string {
    match p
    case Low => "Low"
    case Medium => "Medium"
    case High => "High"
    case Critical => "Critical"
  }

  /** `value in dict(PRIORITY_CHOICES)`: the priority a submitted text names, if any. */
  function ParsePriority(text: string): (p: Option<Priority>)
    ensures p.Some? ==> PriorityName(p.value) == text
  {
    if text == "Low" then Some(Low)
    else if text == "Medium" then Some(Medium)
    else if text == "High" then Some(High)
    else if text == "Critical" then Some(Critical)
    else None
  }

  /** Each priority's own name parses back to that priority. */
  lemma ParsePriorityName(p: Priority)
    ensures ParsePriority(PriorityName(p)) == Some(p)
  {
  }

  /** Repaired and Scrap are the stages in which work is over. */
  predicate IsClosed(s: Stage) {
    s == Repaired || s == Scrap
  }

  /** Python truthiness of an optional text field: set and not empty. */
  predicate Filled(text: Option<string>) {
    text.Some? && text.value != ""
  }

  /** Python truthiness of `duration_hours`: a Decimal 0 counts as unset. */
  predicate DurationSet(hundredths: Option<int>) {
    hundredths.Some? && hundredths.value != 0
  }

  /** An `Equipment` row. `team` is the required maintenance team. */
  datatype EquipmentRecord = EquipmentRecord(
    id: nat,
    name: string,
    team: TeamId,
    defaultTechnician: Option<UserId>,
    purchaseDate: Option<Day>,
    intervalDays: Option<int>,
    isScrapped: bool,
    scrapDate: Option<Day>,
    scrapReason: Option<string>)

  /** A `MaintenanceRequest` row. `duration` is `duration_hours` in
      hundredths of an hour; times are in seconds, dates are day ordinals. */
  datatype RequestRecord = RequestRecord(
    id: nat,
    subject: string,
    requestType: RequestType,
    stage: Stage,
    priority: Priority,
    equipmentId: nat,
    team: Option<TeamId>,
    technician: Option<UserId>,
    createdBy: UserId,
    scheduledDate: Option<Day>,
    completedDate: Option<Day>,
    duration: Option<int>,
    startTime: Option<Seconds>,
    endTime: Option<Seconds>,
    isOverdue: bool,
    technicianNotes: Option<string>,
    resolutionSummary: Option<string>)

  /** The request row as `save` writes it: `is_overdue` is recomputed from
      the scheduled date, the stage and today, whatever it was before. */
  function Saved(r: RequestRecord, today: Day): (s: RequestRecord)
    ensures s.isOverdue <==> r.scheduledDate.Some? && !IsClosed(r.stage) && r.scheduledDate.value < today
    ensures s.(isOverdue := r.isOverdue) == r
  {
    if r.scheduledDate.Some? && r.stage !in {Repaired, Scrap} then r.(isOverdue := r.scheduledDate.value < today)
    else r.(isOverdue := false)
  }

  /** What saving a request does to its equipment: a request in stage Scrap
      whose equipment is not yet scrapped marks it scrapped today and, when
      the request has a resolution summary, records it as the scrap reason;
      every other save leaves the equipment as it was. */
  function ScrapCascade(r: RequestRecord, e: EquipmentRecord, today: Day): (e': EquipmentRecord)
    ensures r.stage != Scrap || e.isScrapped ==> e' == e
    ensures r.stage == Scrap && !e.isScrapped ==>
      && e'.isScrapped
      && e'.scrapDate == Some(today)
      && e'.scrapReason == (if Filled(r.resolutionSummary) then r.resolutionSummary else e.scrapReason)
      && e'.(isScrapped := false, scrapDate := e.scrapDate, scrapReason := e.scrapReason) == e
  {
    if r.stage == Scrap && !e.isScrapped then
      e.(isScrapped := true,
         scrapDate := Some(today),
         scrapReason := if Filled(r.resolutionSummary) then r.resolutionSummary else e.scrapReason)
    else e
  }

  /** Saving is idempotent: a second save on the same day writes the same
      row, and the flag written does not depend on the flag read. */
  lemma SaveIdempotent(r: RequestRecord, flag: bool, today: Day)
    ensures Saved(Saved(r, today), today) == Saved(r, today)
    ensures Saved(r.(isOverdue := flag), today) == Saved(r, today)
  {
  }

  /** A request that is Repaired or Scrap is never overdue after a save,
      however old its scheduled date. */
  lemma ClosedRequestsAreNotOverdue(r: RequestRecord, today: Day)
    requires IsClosed(r.stage)
    ensures !Saved(r, today).isOverdue
  {
  }

  /** The equipment after a series of saves of (possibly different) requests
      on the given days. */
  function SaveAll(e: EquipmentRecord, saves: seq<(RequestRecord, Day)>): EquipmentRecord
    decreases |saves|
  {
    if saves == [] then e
    else SaveAll(ScrapCascade(saves[0].0, e, saves[0].1), saves[1..])
  }

  /** The scrap cascade fires at most once: equipment already scrapped is not
      changed by any later saves, and equipment that is not yet scrapped is
      changed by the first save in stage Scrap and by no other. */
  lemma {:induction false} CascadeFiresOnce(e: EquipmentRecord, saves: seq<(RequestRecord, Day)>)
    ensures e.isScrapped ==> SaveAll(e, saves) == e
    ensures !e.isScrapped ==>
      (forall i :: 0 <= i < |saves| ==> saves[i].0.stage != Scrap) ==> SaveAll(e, saves) == e
    ensures !e.isScrapped ==> forall k ::
      (0 <= k < |saves| && saves[k].0.stage == Scrap && forall i :: 0 <= i < k ==> saves[i].0.stage != Scrap)
      ==> SaveAll(e, saves) == ScrapCascade(saves[k].0, e, saves[k].1)
    decreases |saves|
  {
    if saves != [] {
      var e1 := ScrapCascade(saves[0].0, e, saves[0].1);
      CascadeFiresOnce(e1, saves[1..]);
      if !e.isScrapped {
        forall k | 0 <= k < |saves| && saves[k].0.stage == Scrap && (forall i :: 0 <= i < k ==> saves[i].0.stage != Scrap)
          ensures SaveAll(e, saves) == ScrapCascade(saves[k].0, e, saves[k].1)
        {
          if k > 0 {
            assert saves[0].0.stage != Scrap;
            assert forall i :: 0 <= i < k - 1 ==> saves[1..][i].0.stage != Scrap by {
              forall i | 0 <= i < k - 1 ensures saves[1..][i].0.stage != Scrap {
                assert saves[1..][i] == saves[i + 1];
              }
            }
            assert saves[1..][k - 1] == saves[k];
          }
        }
        if forall i :: 0 <= i < |saves| ==> saves[i].0.stage != Scrap {
          assert forall i :: 0 <= i < |saves| - 1 ==> saves[1..][i].0.stage != Scrap by {
            forall i | 0 <= i < |saves| - 1 ensures saves[1..][i].0.stage != Scrap {
              assert saves[1..][i] == saves[i + 1];
            }
          }
        }
      }
    }
  }

  /** A request that counts as a completed preventive service of equipment
      `equipmentId`: Preventive and Repaired. */
  predicate IsCompletedService(r: RequestRecord, equipmentId: nat) {
    r.equipmentId == equipmentId && r.requestType == Preventive && r.stage == Repaired
  }

  /** The `completed_date` of the row that
      `filter(equipment=e, request_type='Preventive', stage='Repaired')
         .order_by('-completed_date', '-actual_end_time').first()`
      returns: None when there is no such row. PostgreSQL places NULL first
      in a descending order, so the first row has no completion date as soon
      as one of the rows has none; otherwise it carries the latest date. */
  function LastService(rows: seq<RequestRecord>, equipmentId: nat): (c: Option<Option<Day>>)
    ensures c.None? <==> forall i :: 0 <= i < |rows| ==> !IsCompletedService(rows[i], equipmentId)
    ensures c == Some(None) <==>
      exists i :: 0 <= i < |rows| && IsCompletedService(rows[i], equipmentId) && rows[i].completedDate.None?
    ensures c.Some? && c.value.Some? ==>
      && (exists i :: 0 <= i < |rows| && IsCompletedService(rows[i], equipmentId) && rows[i].completedDate == c.value)
      && (forall i :: 0 <= i < |rows| && IsCompletedService(rows[i], equipmentId) ==>
            rows[i].completedDate.Some? && rows[i].completedDate.value <= c.value.value)
  {
    if rows == [] then None
    else
      var rest := LastService(rows[1..], equipmentId);
      assert forall i :: 1 <= i < |rows| ==> rows[i] == rows[1..][i - 1];
      if !IsCompletedService(rows[0], equipmentId) then rest
      else if rows[0].completedDate.None? then Some(None)
      else match rest
        case None => Some(rows[0].completedDate)
        case Some(None) => Some(None)
        case Some(Some(d)) =>
          if rows[0].completedDate.value >= d then Some(rows[0].completedDate) else rest
  }

  /** `Equipment.get_next_maintenance_date()`: None when no interval is set
      (or it is 0); otherwise the interval added to the completion date of
      the last completed preventive service if that row has one, else to the
      purchase date if there is one, else to today. */
  function NextMaintenanceDate(e: EquipmentRecord, rows: seq<RequestRecord>, today: Day): (next: Option<Day>)
    ensures next.None? <==> e.intervalDays.None? || e.intervalDays == Some(0)
    ensures next.Some? ==> match LastService(rows, e.id)
      case Some(Some(done)) => next.value == done + e.intervalDays.value
      case _ => next.value == e.purchaseDate.GetOr(today) + e.intervalDays.value
  {
    if e.intervalDays.None? || e.intervalDays.value == 0 then None
    else
      var interval := e.intervalDays.value;
      match LastService(rows, e.id)
      case Some(Some(done)) => Some(done + interval)
      case _ =>
        var base := if e.purchaseDate.Some? then e.purchaseDate.value else today;
        Some(base + interval)
  }

  /** Equipment bought on 2023-01-15 with a 90-day interval and no completed
      preventive service is next due on 2023-04-15, whatever today is. */
  lemma NextMaintenanceFromPurchase(e: EquipmentRecord, rows: seq<RequestRecord>, today: Day)
    requires e.purchaseDate == Some(Ordinal(2023, 1, 15)) && e.intervalDays == Some(90)
    requires forall i :: 0 <= i < |rows| ==> !IsCompletedService(rows[i], e.id)
    ensures NextMaintenanceDate(e, rows, today) == Some(Ordinal(2023, 4, 15))
  {
    NinetyDaysAfterJanuary15();
  }

  /** A completed service with a date always wins over the purchase date:
      when every completed service of the equipment has a completion date,
      the next date is one interval after the latest of them. */
  lemma NextMaintenanceFromLastService(e: EquipmentRecord, rows: seq<RequestRecord>, today: Day, k: nat)
    requires e.intervalDays.Some? && e.intervalDays.value != 0
    requires k < |rows| && IsCompletedService(rows[k], e.id)
    requires forall i :: 0 <= i < |rows| && IsCompletedService(rows[i], e.id) ==> rows[i].completedDate.Some?
    requires forall i :: 0 <= i < |rows| && IsCompletedService(rows[i], e.id) ==>
      rows[i].completedDate.value <= rows[k].completedDate.value
    ensures NextMaintenanceDate(e, rows, today) == Some(rows[k].completedDate.value + e.intervalDays.value)
  {
    var c := LastService(rows, e.id);
    assert c.Some?;
    assert c != Some(None);
  }

  datatype RegistrationStatus = Pending | Approved | Rejected

  /** A `UserRegistration` row: a sign-up waiting for an administrator.
      Usernames and emails are unique across all registrations. */
  datatype Registration = Registration(
    id: nat,
    username: string,
    email: string,
    firstName: string,
    lastName: string,
    password: string,
    requestedRole: string,
    status: RegistrationStatus,
    approvedBy: Option<UserId>,
    approvedAt: Option<Seconds>,
    rejectionReason: Option<string>)

  /** A `User` account with its profile's role (None when it has no
      profile). Accounts are keyed by their unique username. */
  datatype Account = Account(id: UserId, email: string, role: Option<string>)

  /** A loaded `Equipment` instance. */
  class Equipment {
    const id: nat
    var name: string
    var team: TeamId
    var defaultTechnician: Option<UserId>
    var purchaseDate: Option<Day>
    var intervalDays: Option<int>
    var isScrapped: bool
    var scrapDate: Option<Day>
    var scrapReason: Option<string>

    /** The row this instance writes when saved. */
    function Record(): EquipmentRecord
      reads this
    {
      EquipmentRecord(id, name, team, defaultTechnician, purchaseDate, intervalDays, isScrapped, scrapDate, scrapReason)
    }

    /** Loads a row. */
    constructor (row: EquipmentRecord)
      ensures Record() == row
    {
      id := row.id;
      name := row.name;
      team := row.team;
      defaultTechnician := row.defaultTechnician;
      purchaseDate := row.purchaseDate;
      intervalDays := row.intervalDays;
      isScrapped := row.isScrapped;
      scrapDate := row.scrapDate;
      scrapReason := row.scrapReason;
    }
  }

  /** A loaded `MaintenanceRequest` instance, linked to its equipment. */
  class MaintenanceRequest {
    const id: nat
    var subject: string
    var requestType: RequestType
    var stage: Stage
    var priority: Priority
    var equipment: Equipment
    var team: Option<TeamId>
    var technician: Option<UserId>
    var createdBy: UserId
    var scheduledDate: Option<Day>
    var completedDate: Option<Day>
    var duration: Option<int>
    var startTime: Option<Seconds>
    var endTime: Option<Seconds>
    var isOverdue: bool
    var technicianNotes: Option<string>
    var resolutionSummary: Option<string>

    /** The row this instance writes when saved. */
    function Record(): RequestRecord
      reads this
    {
      RequestRecord(id, subject, requestType, stage, priority, equipment.id, team, technician, createdBy,
        scheduledDate, completedDate, duration, startTime, endTime, isOverdue, technicianNotes, resolutionSummary)
    }

    /** Loads a row together with the equipment it references. */
    constructor (row: RequestRecord, equipment: Equipment)
      requires row.equipmentId == equipment.id
      ensures Record() == row && this.equipment == equipment
    {
      id := row.id;
      subject := row.subject;
      requestType := row.requestType;
      stage := row.stage;
      priority := row.priority;
      this.equipment := equipment;
      team := row.team;
      technician := row.technician;
      createdBy := row.createdBy;
      scheduledDate := row.scheduledDate;
      completedDate := row.completedDate;
      duration := row.duration;
      startTime := row.startTime;
      endTime := row.endTime;
      isOverdue := row.isOverdue;
      technicianNotes := row.technicianNotes;
      resolutionSummary := row.resolutionSummary;
    }

    /** `MaintenanceRequest.save()`: recompute `is_overdue`, then cascade a
        scrap onto the equipment. */
    method Save(today: Day)
      modifies this, equipment
      ensures equipment == old(equipment)
      ensures Record() == Saved(old(Record()), today)
      ensures equipment.Record() == ScrapCascade(old(Record()), old(equipment.Record()), today)
    {
      if scheduledDate.Some? && stage !in {Repaired, Scrap} {
        isOverdue := scheduledDate.value < today;
      } else {
        isOverdue := false;
      }
      if stage == Scrap {
        if !equipment.isScrapped {
          equipment.isScrapped := true;
          equipment.scrapDate := Some(today);
          if Filled(resolutionSummary) {
            equipment.scrapReason := resolutionSummary;
          }
        }
      }
    }
  }
}

=== FILE: registrations.dfy ===
/** Registration approval: a sign-up waits as a Pending registration until an
    administrator approves it (creating the account, or giving an existing
    account the requested role) or rejects it, one at a time from the
    registration list or in bulk from the admin site. The accounts and the
    registrations are held by a `Registry` whose methods change them in
    place; `Db` is the state they describe. */
module Registrations {
  import opened Wrappers
  import opened Dates
  import opened Identity
  import opened Models
  import Forms
  import Decorators

  /** The accounts (by username), the registrations (by key), and the key
      the next new account gets. */
  datatype Db = Db(users: map<string, Account>, registrations: map<nat, Registration>, nextUserId: UserId)

  /** The invariant approval keeps on the accounts (the database itself
      enforces only the distinct keys): account keys are below the next key
      and distinct, and no two accounts share an email. */
  predicate Valid(db: Db) {
    && (forall u :: u in db.users ==> db.users[u].id < db.nextUserId)
    && (forall u, v :: u in db.users && v in db.users && u != v ==> db.users[u].id != db.users[v].id)
    && (forall u, v :: u in db.users && v in db.users && u != v ==> db.users[u].email != db.users[v].email)
  }

  /** What processing one registration did. */
  datatype Outcome = RoleUpdated | Created | EmailInUse | Raised(message: string)

  predicate Counted(o: Outcome) {
    o == RoleUpdated || o == Created
  }

  /** The registration as an approval leaves it. */
  function Approve(reg: Registration, approver: UserId, now: Seconds): Registration {
    reg.(status := Approved, approvedBy := Some(approver), approvedAt := Some(now))
  }

  /** Approving one registration, as both the admin action and the approve
      view do it: when an account with the username exists it gets the
      requested role and the registration is approved; otherwise, when the
      email is taken, nothing changes; otherwise an account is created with
      the requested role and the registration is approved. `raised` is an
      error the database raised before anything was written. */
  function ApproveOne(db: Db, id: nat, approver: UserId, now: Seconds, raised: Option<string>): (res: (Db, Outcome))
    requires id in db.registrations
    ensures res.0.registrations.Keys == db.registrations.Keys
    ensures !Counted(res.1) ==> res.0 == db
    ensures Counted(res.1) ==>
      && res.0.registrations == db.registrations[id := Approve(db.registrations[id], approver, now)]
      && db.registrations[id].username in res.0.users
      && res.0.users[db.registrations[id].username].role == Some(db.registrations[id].requestedRole)
    ensures res.1 == RoleUpdated <==> raised.None? && db.registrations[id].username in db.users
    ensures res.1 == EmailInUse <==>
      raised.None? && db.registrations[id].username !in db.users && Forms.EmailTaken(db.users, db.registrations[id].email)
    ensures res.1 == Created ==>
      && res.0.users == db.users[db.registrations[id].username := Account(db.nextUserId, db.registrations[id].email, Some(db.registrations[id].requestedRole))]
      && res.0.nextUserId == db.nextUserId + 1
  {
    var reg := db.registrations[id];
    if raised.Some? then (db, Raised(raised.value))
    else if reg.username in db.users then
      var account := db.users[reg.username];
      (db.(users := db.users[reg.username := account.(role := Some(reg.requestedRole))],
           registrations := db.registrations[id := Approve(reg, approver, now)]),
       RoleUpdated)
    else if Forms.EmailTaken(db.users, reg.email) then (db, EmailInUse)
    else
      (Db(db.users[reg.username := Account(db.nextUserId, reg.email, Some(reg.requestedRole))],
          db.registrations[id := Approve(reg, approver, now)],
          db.nextUserId + 1),
       Created)
  }

  /** One approval keeps the account table's constraints. */
  lemma ApproveOneKeepsValid(db: Db, id: nat, approver: UserId, now: Seconds, raised: Option<string>)
    requires id in db.registrations && Valid(db)
    ensures Valid(ApproveOne(db, id, approver, now, raised).0)
  {
    var res := ApproveOne(db, id, approver, now, raised);
    var reg := db.registrations[id];
    if res.1 == Created {
      forall u, v | u in res.0.users && v in res.0.users && u != v
        ensures res.0.users[u].email != res.0.users[v].email
      {
        if u == reg.username {
          assert v in db.users;
        } else if v == reg.username {
          assert u in db.users;
        }
      }
    }
  }

  /** The error line the admin action records for a registration it did not
      approve. */
  function ErrorLine(reg: Registration, o: Outcome): string {
    match o
    case Raised(message) => reg.username + ": " + message
    case _ => reg.username + ": Email already registered"
  }

  /** The admin action's loop, from the registration `queue` onwards, with
      the count and the error lines so far. */
  function ApproveFrom(db: Db, queue: seq<nat>, approver: UserId, now: Seconds, raises: map<nat, string>,
                       count: nat, errors: seq<string>): (res: (Db, nat, seq<string>))
    requires forall i :: 0 <= i < |queue| ==> queue[i] in db.registrations
    ensures res.0.registrations.Keys == db.registrations.Keys
    decreases |queue|
  {
    if queue == [] then (db, count, errors)
    else
      var id := queue[0];
      var raised := if id in raises then Some(raises[id]) else None;
      var (db', o) := ApproveOne(db, id, approver, now, raised);
      assert forall i :: 0 <= i < |queue[1..]| ==> queue[1..][i] == queue[i + 1];
      if Counted(o) then ApproveFrom(db', queue[1..], approver, now, raises, count + 1, errors)
      else ApproveFrom(db', queue[1..], approver, now, raises, count, errors + [ErrorLine(db.registrations[id], o)])
  }

  /** Every registration in the queue is either counted or reported, never
      both and never neither. */
  lemma {:induction false} EveryQueuedRegistrationAccounted(db: Db, queue: seq<nat>, approver: UserId, now: Seconds, raises: map<nat, string>,
                                                         count: nat, errors: seq<string>)
    requires forall i :: 0 <= i < |queue| ==> queue[i] in db.registrations
    ensures var res := ApproveFrom(db, queue, approver, now, raises, count, errors);
      res.1 - count + (|res.2| - |errors|) == |queue| && res.1 >= count && |res.2| >= |errors|
    decreases |queue|
  {
    if queue != [] {
      var id := queue[0];
      var raised := if id in raises then Some(raises[id]) else None;
      var (db', o) := ApproveOne(db, id, approver, now, raised);
      assert forall i :: 0 <= i < |queue[1..]| ==> queue[1..][i] == queue[i + 1];
      if Counted(o) {
        EveryQueuedRegistrationAccounted(db', queue[1..], approver, now, raises, count + 1, errors);
      } else {
        EveryQueuedRegistrationAccounted(db', queue[1..], approver, now, raises, count, errors + [ErrorLine(db.registrations[id], o)]);
      }
    }
  }

  /** Registrations outside the queue are left as they were. */
  lemma {:induction false} OnlyQueuedRegistrationsChange(db: Db, queue: seq<nat>, approver: UserId, now: Seconds, raises: map<nat, string>,
                                                       count: nat, errors: seq<string>, k: nat)
    requires forall i :: 0 <= i < |queue| ==> queue[i] in db.registrations
    requires k in db.registrations && k !in queue
    ensures ApproveFrom(db, queue, approver, now, raises, count, errors).0.registrations[k] == db.registrations[k]
    decreases |queue|
  {
    if queue != [] {
      var id := queue[0];
      var raised := if id in raises then Some(raises[id]) else None;
      var (db', o) := ApproveOne(db, id, approver, now, raised);
      assert forall i :: 0 <= i < |queue[1..]| ==> queue[1..][i] == queue[i + 1];
      assert k !in queue[1..];
      if Counted(o) {
        OnlyQueuedRegistrationsChange(db', queue[1..], approver, now, raises, count + 1, errors, k);
      } else {
        OnlyQueuedRegistrationsChange(db', queue[1..], approver, now, raises, count, errors + [ErrorLine(db.registrations[id], o)], k);
      }
    }
  }

  /** How many registrations of `queue` have status `status` in `regs`. */
  function CountStatus(queue: seq<nat>, regs: map<nat, Registration>, status: RegistrationStatus): nat
    requires forall i :: 0 <= i < |queue| ==> queue[i] in regs
  {
    if queue == [] then 0
    else
      assert forall i :: 0 <= i < |queue[1..]| ==> queue[1..][i] == queue[i + 1];
      (if regs[queue[0]].status == status then 1 else 0) + CountStatus(queue[1..], regs, status)
  }

  /** On a queue of distinct Pending registrations, each one either ends
      approved (by the approver, at the time) or is left as it was, still
      Pending; the count the action reports is the number that end Approved,
      and the error lines are as many as those left Pending. */
  lemma {:induction false} ApprovedExactlyCounted(db: Db, queue: seq<nat>, approver: UserId, now: Seconds, raises: map<nat, string>,
                                                count: nat, errors: seq<string>)
    requires forall i :: 0 <= i < |queue| ==> queue[i] in db.registrations && db.registrations[queue[i]].status == Pending
    requires forall i, j :: 0 <= i < j < |queue| ==> queue[i] != queue[j]
    ensures var res := ApproveFrom(db, queue, approver, now, raises, count, errors);
      && (forall k :: k in queue ==>
            res.0.registrations[k] == db.registrations[k] || res.0.registrations[k] == Approve(db.registrations[k], approver, now))
      && res.1 - count == CountStatus(queue, res.0.registrations, Approved)
      && |res.2| - |errors| == CountStatus(queue, res.0.registrations, Pending)
    decreases |queue|
  {
    if queue != [] {
      var id := queue[0];
      var rest := queue[1..];
      assert forall i :: 0 <= i < |rest| ==> rest[i] == queue[i + 1];
      assert id !in rest by {
        forall i | 0 <= i < |rest| ensures rest[i] != id {
          assert rest[i] == queue[i + 1];
        }
      }
      var raised := if id in raises then Some(raises[id]) else None;
      var (db', o) := ApproveOne(db, id, approver, now, raised);
      var count' := if Counted(o) then count + 1 else count;
      var errors' := if Counted(o) then errors else errors + [ErrorLine(db.registrations[id], o)];
      assert ApproveFrom(db, queue, approver, now, raises, count, errors) == ApproveFrom(db', rest, approver, now, raises, count', errors');
      assert forall k :: k != id && k in db.registrations ==> db'.registrations[k] == db.registrations[k];
      ApprovedExactlyCounted(db', rest, approver, now, raises, count', errors');
      OnlyQueuedRegistrationsChange(db', rest, approver, now, raises, count', errors', id);
      var res := ApproveFrom(db', rest, approver, now, raises, count', errors');
      assert res.0.registrations[id] == db'.registrations[id];
      assert CountStatus(queue, res.0.registrations, Approved)
          == (if res.0.registrations[id].status == Approved then 1 else 0) + CountStatus(rest, res.0.registrations, Approved);
      assert CountStatus(queue, res.0.registrations, Pending)
          == (if res.0.registrations[id].status == Pending then 1 else 0) + CountStatus(rest, res.0.registrations, Pending);
      EveryQueuedRegistrationAccounted(db', rest, approver, now, raises, count', errors');
    }
  }

  /** The admin action keeps the account table's constraints. */
  lemma {:induction false} ApproveFromKeepsValid(db: Db, queue: seq<nat>, approver: UserId, now: Seconds, raises: map<nat, string>,
                                               count: nat, errors: seq<string>)
    requires forall i :: 0 <= i < |queue| ==> queue[i] in db.registrations
    requires Valid(db)
    ensures Valid(ApproveFrom(db, queue, approver, now, raises, count, errors).0)
    decreases |queue|
  {
    if queue != [] {
      var id := queue[0];
      var raised := if id in raises then Some(raises[id]) else None;
      var (db', o) := ApproveOne(db, id, approver, now, raised);
      ApproveOneKeepsValid(db, id, approver, now, raised);
      assert forall i :: 0 <= i < |queue[1..]| ==> queue[1..][i] == queue[i + 1];
      if Counted(o) {
        ApproveFromKeepsValid(db', queue[1..], approver, now, raises, count + 1, errors);
      } else {
        ApproveFromKeepsValid(db', queue[1..], approver, now, raises, count, errors + [ErrorLine(db.registrations[id], o)]);
      }
    }
  }

  /** The selected registrations that are Pending, in the order selected:
      the only ones the admin actions touch. */
  function PendingOf(registrations: map<nat, Registration>, selected: seq<nat>): (queue: seq<nat>)
    ensures forall i :: 0 <= i < |queue| ==> queue[i] in registrations && registrations[queue[i]].status == Pending
    ensures forall k :: k in queue <==> k in selected && k in registrations && registrations[k].status == Pending
  {
    if selected == [] then []
    else
      var rest := PendingOf(registrations, selected[1..]);
      assert forall k :: k in selected <==> k == selected[0] || k in selected[1..];
      if selected[0] in registrations && registrations[selected[0]].status == Pending then [selected[0]] + rest else rest
  }

  /** A selection without repeats gives a queue without repeats. */
  lemma {:induction false} PendingOfDistinct(registrations: map<nat, Registration>, selected: seq<nat>)
    requires forall i, j :: 0 <= i < j < |selected| ==> selected[i] != selected[j]
    ensures forall i, j :: 0 <= i < j < |PendingOf(registrations, selected)| ==>
      PendingOf(registrations, selected)[i] != PendingOf(registrations, selected)[j]
    decreases |selected|
  {
    if selected != [] {
      var rest := selected[1..];
      assert forall i :: 0 <= i < |rest| ==> rest[i] == selected[i + 1];
      PendingOfDistinct(registrations, rest);
      assert selected[0] !in rest by {
        forall i | 0 <= i < |rest| ensures rest[i] != selected[0] {
          assert rest[i] == selected[i + 1];
        }
      }
      var tail := PendingOf(registrations, rest);
      assert selected[0] !in tail;
      if selected[0] in registrations && registrations[selected[0]].status == Pending {
        var queue := [selected[0]] + tail;
        assert PendingOf(registrations, selected) == queue;
        forall i, j | 0 <= i < j < |queue| ensures queue[i] != queue[j] {
          assert queue[j] == tail[j - 1] && tail[j - 1] in tail;
          if i > 0 {
            assert queue[i] == tail[i - 1];
            assert tail[i - 1] != tail[j - 1];
          }
        }
      }
    }
  }

  /** The bulk approval's count is the number of selected Pending
      registrations that end Approved, and its error lines are as many as
      those still Pending. */
  lemma ActionCountsApproved(db: Db, selected: seq<nat>, approver: UserId, now: Seconds, raises: map<nat, string>)
    requires forall i, j :: 0 <= i < j < |selected| ==> selected[i] != selected[j]
    ensures var queue := PendingOf(db.registrations, selected);
      var res := ApproveFrom(db, queue, approver, now, raises, 0, []);
      && res.1 == CountStatus(queue, res.0.registrations, Approved)
      && |res.2| == CountStatus(queue, res.0.registrations, Pending)
  {
    PendingOfDistinct(db.registrations, selected);
    ApprovedExactlyCounted(db, PendingOf(db.registrations, selected), approver, now, raises, 0, []);
  }

  // ---------------------------------------------------------------------
  // The messages of the admin actions

  datatype Level = Info | Warning

  datatype AdminMessage = AdminMessage(level: Level, text: string)

  function ApprovedText(count: nat): string {
    NatToString(count) + " registration(s) approved and users created."
  }

  function WarningText(count: nat, errors: seq<string>): string {
    NatToString(count) + " registration(s) approved. Errors: " + Decorators.Join(errors, "; ")
  }

  /** The messages `approve_registrations` sends as written: a warning
      listing the errors, or a success message, and then the success message
      again in every case. */
  function ApprovalMessagesAsWritten(count: nat, errors: seq<string>): (msgs: seq<AdminMessage>)
    ensures |msgs| == 2 && msgs[1] == AdminMessage(Info, ApprovedText(count))
  {
    (if errors != [] then [AdminMessage(Warning, WarningText(count, errors))]
     else [AdminMessage(Info, ApprovedText(count))])
    + [AdminMessage(Info, ApprovedText(count))]
  }

  /** One message: the warning when a registration could not be approved,
      the success message otherwise. */
  function ApprovalMessages(count: nat, errors: seq<string>): (msgs: seq<AdminMessage>)
    ensures |msgs| == 1
    ensures msgs[0].level == Warning <==> errors != []
    ensures errors == [] ==> msgs[0].text == ApprovedText(count)
  {
    if errors != [] then [AdminMessage(Warning, WarningText(count, errors))]
    else [AdminMessage(Info, ApprovedText(count))]
  }

  /** As written, a clean run announces its result twice, and a run with
      errors follows its warning with a message saying every user was
      created; the corrected messages say it once. */
  lemma ApprovalMessageRepeated(count: nat, error: string)
    ensures ApprovalMessagesAsWritten(count, []) == [AdminMessage(Info, ApprovedText(count)), AdminMessage(Info, ApprovedText(count))]
    ensures ApprovalMessagesAsWritten(count, [error])[0].level == Warning
    ensures ApprovalMessagesAsWritten(count, [error])[1] == AdminMessage(Info, ApprovedText(count))
    ensures ApprovalMessages(count, []) == [AdminMessage(Info, ApprovedText(count))]
    ensures ApprovalMessages(count, [error]) == [AdminMessage(Warning, WarningText(count, [error]))]
  {
  }

  // ---------------------------------------------------------------------
  // Bulk rejection

  /** `reject_registrations`: the bulk update of the selected Pending rows.
      No row appears or disappears, no field but the status changes, a row
      changes exactly when it was selected and Pending, and every row that
      changes ends Rejected. */
  function RejectSelected(registrations: map<nat, Registration>, selected: set<nat>): (regs: map<nat, Registration>)
    ensures regs.Keys == registrations.Keys
    ensures forall k :: k in regs ==> regs[k].(status := registrations[k].status) == registrations[k]
    ensures forall k :: k in regs ==> (regs[k] != registrations[k] <==> k in selected && registrations[k].status == Pending)
    ensures forall k :: k in regs && regs[k] != registrations[k] ==> regs[k].status == Rejected
  {
    map k | k in registrations ::
      if k in selected && registrations[k].status == Pending then registrations[k].(status := Rejected) else registrations[k]
  }

  /** The number of rows the bulk update changes. */
  function PendingSelected(registrations: map<nat, Registration>, selected: set<nat>): set<nat> {
    set k | k in selected && k in registrations && registrations[k].status == Pending
  }

  /** After a bulk rejection none of the selected registrations is Pending,
      no registration that was not Pending changed, and the count is the
      number that changed. */
  lemma RejectionSettlesSelection(registrations: map<nat, Registration>, selected: set<nat>)
    ensures forall k :: k in selected && k in registrations ==> RejectSelected(registrations, selected)[k].status != Pending
    ensures forall k :: k in registrations && registrations[k].status != Pending ==> RejectSelected(registrations, selected)[k] == registrations[k]
    ensures PendingSelected(registrations, selected)
         == set k | k in registrations && RejectSelected(registrations, selected)[k] != registrations[k]
  {
  }

  // ---------------------------------------------------------------------
  // The registry

  const NO_PERMISSION: string := "Permission denied"

  /** The approve view's answer when the email belongs to another account. */
  function EmailTakenText(email: string): string {
    "Email \"" + email + "\" is already registered to another user."
  }

  /** The application's accounts and registrations. */
  class Registry {
    var users: map<string, Account>
    var registrations: map<nat, Registration>
    var nextUserId: UserId

    function Snapshot(): Db
      reads this
    {
      Db(users, registrations, nextUserId)
    }

    constructor (db: Db)
      ensures Snapshot() == db
    {
      users := db.users;
      registrations := db.registrations;
      nextUserId := db.nextUserId;
    }

    /** The body of the approval: the branches of the admin action and the
        approve view, on this registry. */
    method ApproveStep(id: nat, approver: UserId, now: Seconds, raised: Option<string>) returns (outcome: Outcome)
      requires id in registrations
      modifies this
      ensures (Snapshot(), outcome) == ApproveOne(old(Snapshot()), id, approver, now, raised)
    {
      var reg := registrations[id];
      if raised.Some? {
        return Raised(raised.value);
      }
      if reg.username in users {
        var account := users[reg.username];
        users := users[reg.username := account.(role := Some(reg.requestedRole))];
        registrations := registrations[id := Approve(reg, approver, now)];
        return RoleUpdated;
      }
      if Forms.EmailTaken(users, reg.email) {
        return EmailInUse;
      }
      users := users[reg.username := Account(nextUserId, reg.email, Some(reg.requestedRole))];
      nextUserId := nextUserId + 1;
      registrations := registrations[id := Approve(reg, approver, now)];
      outcome := Created;
    }

    /** `UserRegistrationAdmin.approve_registrations` on the selected
        registrations: each Pending one is approved in turn, counting the
        approvals and collecting an error line for each failure; an error
        on one registration does not stop the others. */
    method ApproveRegistrations(selected: seq<nat>, approver: UserId, now: Seconds, raises: map<nat, string>)
      returns (count: nat, errors: seq<string>, messages: seq<AdminMessage>)
      requires forall i, j :: 0 <= i < j < |selected| ==> selected[i] != selected[j]
      modifies this
      ensures var queue := PendingOf(old(registrations), selected);
        (Snapshot(), count, errors) == ApproveFrom(old(Snapshot()), queue, approver, now, raises, 0, [])
      ensures messages == ApprovalMessages(count, errors)
    {
      var queue := PendingOf(registrations, selected);
      ghost var start := Snapshot();
      count, errors := 0, [];
      for i := 0 to |queue|
        invariant registrations.Keys == start.registrations.Keys
        invariant ApproveFrom(Snapshot(), queue[i..], approver, now, raises, count, errors)
               == ApproveFrom(start, queue, approver, now, raises, 0, [])
      {
        var id := queue[i];
        var raised := if id in raises then Some(raises[id]) else None;
        var reg := registrations[id];
        var outcome := ApproveStep(id, approver, now, raised);
        assert queue[i..][1..] == queue[i + 1..];
        if Counted(outcome) {
          count := count + 1;
        } else {
          errors := errors + [ErrorLine(reg, outcome)];
        }
      }
      messages := ApprovalMessages(count, errors);
    }

    /** `UserRegistrationAdmin.reject_registrations`. */
    method RejectRegistrations(selected: set<nat>) returns (count: nat, message: AdminMessage)
      modifies this
      ensures registrations == RejectSelected(old(registrations), selected)
      ensures users == old(users) && nextUserId == old(nextUserId)
      ensures count == |PendingSelected(old(registrations), selected)|
      ensures message == AdminMessage(Info, NatToString(count) + " registration(s) rejected.")
    {
      count := |PendingSelected(registrations, selected)|;
      registrations := RejectSelected(registrations, selected);
      message := AdminMessage(Info, NatToString(count) + " registration(s) rejected.");
    }

    /** The `approve_registration` view: administrators only; the
        registration must exist and be Pending. */
    method ApproveRegistration(who: Principal, id: nat, now: Seconds, raised: Option<string>) returns (reply: Reply)
      modifies this
      ensures RoleOf(who) != Some(ADMIN) ==> reply == JsonError(403, NO_PERMISSION) && Snapshot() == old(Snapshot())
      ensures RoleOf(who) == Some(ADMIN) && (id !in old(registrations) || old(registrations)[id].status != Pending) ==>
        reply == NotFound && Snapshot() == old(Snapshot())
      ensures RoleOf(who) == Some(ADMIN) && id in old(registrations) && old(registrations)[id].status == Pending ==>
        var (db, o) := ApproveOne(old(Snapshot()), id, who.id, now, raised);
        && Snapshot() == db
        && reply == match o
             case RoleUpdated => JsonSuccess
             case Created => JsonSuccess
             case EmailInUse => JsonError(400, EmailTakenText(old(registrations)[id].email))
             case Raised(message) => JsonError(400, message)
    {
      if RoleOf(who) != Some(ADMIN) {
        return JsonError(403, NO_PERMISSION);
      }
      if id !in registrations || registrations[id].status != Pending {
        return NotFound;
      }
      var email := registrations[id].email;
      var outcome := ApproveStep(id, who.id, now, raised);
      match outcome {
        case RoleUpdated => reply := JsonSuccess;
        case Created => reply := JsonSuccess;
        case EmailInUse => reply := JsonError(400, EmailTakenText(email));
        case Raised(message) => reply := JsonError(400, message);
      }
    }

    /** The `reject_registration` view: administrators only; a Pending
        registration becomes Rejected with the reason given (empty when
        none), by this administrator, now. */
    method RejectRegistration(who: Principal, id: nat, reason: Option<string>, now: Seconds) returns (reply: Reply)
      modifies this
      ensures RoleOf(who) != Some(ADMIN) ==> reply == JsonError(403, NO_PERMISSION) && Snapshot() == old(Snapshot())
      ensures RoleOf(who) == Some(ADMIN) && (id !in old(registrations) || old(registrations)[id].status != Pending) ==>
        reply == NotFound && Snapshot() == old(Snapshot())
      ensures RoleOf(who) == Some(ADMIN) && id in old(registrations) && old(registrations)[id].status == Pending ==>
        && reply == JsonSuccess
        && users == old(users) && nextUserId == old(nextUserId)
        && registrations == old(registrations)[id := old(registrations)[id].(
             status := Rejected, rejectionReason := Some(reason.GetOr("")),
             approvedBy := Some(who.id), approvedAt := Some(now))]
    {
      if RoleOf(who) != Some(ADMIN) {
        return JsonError(403, NO_PERMISSION);
      }
      if id !in registrations || registrations[id].status != Pending {
        return NotFound;
      }
      var reg := registrations[id];
      registrations := registrations[id := reg.(status := Rejected, rejectionReason := Some(reason.GetOr("")),
                                                approvedBy := Some(who.id), approvedAt := Some(now))];
      reply := JsonSuccess;
    }
  }

  // ---------------------------------------------------------------------
  // Across the steps

  /** Approving one registration from the list and approving it alone with
      the admin action do the same thing, and the action counts it exactly
      when the view answers with success. */
  lemma ViewAndActionAgree(db: Db, id: nat, approver: UserId, now: Seconds, raises: map<nat, string>)
    requires id in db.registrations
    ensures var raised := if id in raises then Some(raises[id]) else None;
      var res := ApproveFrom(db, [id], approver, now, raises, 0, []);
      && res.0 == ApproveOne(db, id, approver, now, raised).0
      && (res.1 == 1 <==> Counted(ApproveOne(db, id, approver, now, raised).1))
  {
    assert [id][1..] == [];
  }

  /** A sign-up that passes the form, once approved, gives an account with
      the chosen username and email (stripped) and the requested role, which is never
      Admin; and the registration records who approved it. */
  lemma SignupThenApproval(data: Forms.SignupData, db: Db, id: nat, approver: UserId, now: Seconds)
    requires Forms.SignupErrors(data, db.users, db.registrations) == []
    requires id !in db.registrations
    ensures var db1 := db.(registrations := db.registrations[id := Forms.SignupRegistration(data, id)]);
      var (db2, o) := ApproveOne(db1, id, approver, now, None);
      && o == Created
      && Forms.Strip(data.username) in db2.users
      && db2.users[Forms.Strip(data.username)] == Account(db.nextUserId, Forms.Strip(data.email), Some(data.requestedRole))
      && db2.users[Forms.Strip(data.username)].role != Some(ADMIN)
      && db2.registrations[id].status == Approved && db2.registrations[id].approvedBy == Some(approver)
  {
    Forms.SignupNeverRequestsAdmin(data, db.users, db.registrations);
  }
}

=== FILE: utils.dfy ===
/** The role helpers of the utilities module: where each role lands after
    signing in, and a role-membership test. */
module RoleUtils {
  import opened Wrappers
  import opened Identity

  const ADMIN_DASHBOARD: string := "/admin/dashboard/"
  const MANAGER_DASHBOARD: string := "/manager/dashboard/"
  const TECHNICIAN_DASHBOARD: string := "/technician/dashboard/"
  const USER_DASHBOARD: string := "/user/dashboard/"

  /** `get_role_redirect_url(role)`: each of the four roles goes to its own
      dashboard; any other role, and no role at all, goes to the manager
      dashboard. */
  function RedirectUrl(role: Option<string>): (url: string)
    ensures role == Some(ADMIN) ==> url == ADMIN_DASHBOARD
    ensures role == Some(MANAGER) ==> url == MANAGER_DASHBOARD
    ensures role == Some(TECHNICIAN) ==> url == TECHNICIAN_DASHBOARD
    ensures role == Some(USER) ==> url == USER_DASHBOARD
    ensures role !in {Some(ADMIN), Some(MANAGER), Some(TECHNICIAN), Some(USER)} ==> url == MANAGER_DASHBOARD
  {
    if role == Some(ADMIN) then ADMIN_DASHBOARD
    else if role == Some(TECHNICIAN) then TECHNICIAN_DASHBOARD
    else if role == Some(USER) then USER_DASHBOARD
    else MANAGER_DASHBOARD
  }

  /** The role a dashboard path belongs to. */
  function DashboardOwner(url: string): Option<string> {
    if url == ADMIN_DASHBOARD then Some(ADMIN)
    else if url == MANAGER_DASHBOARD then Some(MANAGER)
    else if url == TECHNICIAN_DASHBOARD then Some(TECHNICIAN)
    else if url == USER_DASHBOARD then Some(USER)
    else None
  }

  /** Every role lands on a dashboard, and each of the four roles lands on
      the dashboard that belongs to it, so no two roles share one; a role
      outside the four lands on the manager's. */
  lemma RedirectLandsOnOwnDashboard(role: Option<string>)
    ensures DashboardOwner(RedirectUrl(role)).Some?
    ensures role in {Some(ADMIN), Some(MANAGER), Some(TECHNICIAN), Some(USER)} ==> DashboardOwner(RedirectUrl(role)) == role
    ensures role !in {Some(ADMIN), Some(MANAGER), Some(TECHNICIAN), Some(USER)} ==> DashboardOwner(RedirectUrl(role)) == Some(MANAGER)
  {
  }

  /** `has_role(user, *roles)`: the user's role is one of `roles`. */
  function HasRole(who: Principal, roles: seq<string>): (r: bool)
    ensures r <==> RoleOf(who).Some? && exists i :: 0 <= i < |roles| && roles[i] == RoleOf(who).value
    ensures roles == [] ==> !r
    ensures who.Anonymous? || who.profile.None? ==> !r
  {
    var role := RoleOf(who);
    role.Some? && role.value in roles
  }
}

=== FILE: wrappers.dfy ===
/** Optional values and results with an error, used wherever the source has
    `None` or raises an error that its caller turns into a response. */
module Wrappers {

  datatype Option<+T> = None | Some(value: T) {
    function GetOr(default: T): T {
      match this
      case Some(v) => v
      case None => default
    }
  }

  datatype Result<+R, +E> = Success(value: R) | Failure(error: E)
}
